=== FILE: README.md ===
# Coin economy and entitlement ledger of a drama-streaming backend

This project is a Dafny model of the part of the streaming server that decides who may watch
what. It covers:

- the coin-economics policy: unlock price, premium bypass, ad cap and ad reward;
- the storage operations over coins, unlock grants, subscriptions, favourites and watch progress;
- the request handlers built on them: the two unlock endpoints, earning coins, coin history,
  coin purchase, rewarded ads, and subscription status, verification and cancellation;
- the classification of store receipt checks;
- bearer-token extraction;
- seed-episode generation.

The store is one immutable `State` (`Storage.State`). It holds users (cached `coinBalance`,
`isPremium`, `premiumExpiresAt`), an append-only ledger of coin transactions, the grant table,
the subscription table, a per-day ad counter, favourites and watch-history rows. Every
handler is a pure function of a state and its inputs. The handlers that can refuse return
either an `ApiError` (state unchanged) or a new state with its reply (`Api.Reply`). The
read-only handlers (`BillingStatus`, `CoinHistory`) return their reply alone. The storage
operations the favourite and progress routes call directly (`ToggleFavorite`,
`SaveWatchProgress`) return the new state paired with their answer. `Ledger.Apply` and `Ledger.Run` put
the handlers together into a transition system, and `Ledger.RunPreservesInvariant` proves
four facts hold after any sequence of `Ledger.Request`s, starting from a store that satisfies
the invariant:

- every registered user's ledger is a chain from 0 that ends at the cached balance;
- no balance goes below zero;
- each user has at most one subscription row;
- favourite and watch-progress rows stay unique.

Modules, in dependency order:

- `Wrappers`: `Option` and `Result`.
- `Text`: prefix and substring tests, and decimal rendering.
- `Tables`: first-match lookup, row removal, reversal.
- `Schema`: row shapes and column defaults.
- `CoinEconomics`.
- `Storage`.
- `ReceiptVerification`.
- `Auth`.
- `Seed`.
- `Api`: errors, replies, the shared posting step, platform dispatch.
- `UnlockRoutes`, `CoinRoutes`, `AdRoutes`, `BillingRoutes`.
- `Ledger`: the request datatype and the invariants.
- `Scenarios`: concrete end-to-end runs.

Time is an integer timestamp. Calendar steps ("plus 7 days", "plus one month", "plus one
year") are the fields of a `BillingRoutes.Calendar` value passed in by the caller. The clock,
the environment variables, the store's HTTP answers and the random duration roll of seeded
episodes are all parameters.

Where the code and its own comments or documentation disagree, the model follows the code.
In particular:

- the generic unlock endpoint has no "already unlocked" guard;
- `isPremium` is set by every subscription upsert and is never cleared;
- billing status reports `subscribed` for any active row, whatever its expiry;
- coin earning and coin purchase do not check that the account exists. For a missing account
  a ledger row is written but no balance moves.

Lemmas exhibit each of these (`UnlockRoutes.GenericUnlockChargesAgain`,
`Ledger.PremiumIsForever`,
`Scenarios.PremiumOutlivesCancel`, `BillingRoutes.SubscribedIgnoresClock`,
`Scenarios.ExpiredButSubscribed`, `CoinRoutes.EarnWithoutAccount`).

## Model

| member | source | states |
|---|---|---|
| Text.ContainsIffOccurs | server/routes.ts:886-892 | `includes` as a suffix scan finds a part exactly when it occurs at some position |
| Text.NatToStringValue | server/routes.ts:753 | the rendering of a count in a ledger reason reads back as that count and has no leading zero |
| Text.NatToStringInjective | server/routes.ts:753 | different counts give different renderings |
| Tables.FirstIndex | server/storage.ts:194-200 | the first row matching a condition (the row `limit(1)` / `existing[0]` picks), or none when no row matches |
| Schema.InsertUserRow | shared/schema.ts:14-16 | a new user row takes the supplied premium flag, expiry and balance, defaulting to not premium and balance 0 |
| Schema.NewAccountDefaults | shared/schema.ts:14-16 | an account created without economy values starts not premium, without expiry and with 0 coins |
| Schema.InsertGrantRow | shared/schema.ts:82-88 | a grant row records user and episode; its unlock method defaults to free |
| Schema.InsertSubscriptionRow | shared/schema.ts:101-112 | an inserted subscription row holds the supplied columns, purchase time now and no cancellation time |
| Schema.UpdateSubscriptionRow | server/storage.ts:196-201 | an in-place update overwrites the supplied columns and keeps purchase and cancellation times |
| Schema.InsertFavorite | shared/schema.ts:75-80 | inserting a favourite always succeeds, since no uniqueness constraint applies: the old rows stay in place and the table gains exactly one copy of the new row |
| Schema.InsertFavoriteKeepsUniqueIffNew | shared/schema.ts:75-80 | into a table without repeats, an insert keeps it without repeats exactly when the row is not already there |
| Schema.UnguardedInsertDuplicates | shared/schema.ts:75-80 | inserting the same favourite twice without a lookup always leaves a repeated row, with two more copies than before |
| Schema.InsertPushToken | shared/schema.ts:114-121 | a push-token insert fails exactly when the token is already stored, else appends the row |
| Schema.PushTokenInsertKeepsUnique | shared/schema.ts:117 | token uniqueness survives every insert |
| Schema.DuplicatesOnlyWithoutConstraint | shared/schema.ts:75-117 | the same favourite can be stored twice, the same push token cannot |
| CoinEconomics.CanUnlockEpisode | server/coinEconomics.ts:17-20 | premium users may always unlock; others exactly when they hold at least 2 coins |
| CoinEconomics.GetUnlockCost | server/coinEconomics.ts:26-29 | unlocking costs 0 coins for premium users and 2 otherwise |
| CoinEconomics.HasExceededDailyAdLimit | server/coinEconomics.ts:34-36 | the ad cap is reached exactly from 10 views on |
| CoinEconomics.GetAdReward | server/coinEconomics.ts:41-43 | one ad view pays 3 coins |
| CoinEconomics.CalculateMonthlyFreeVideos | server/coinEconomics.ts:49-53 | ad rewards alone buy 450 videos a month |
| CoinEconomics.CanUnlockIffCoversCost | server/coinEconomics.ts:17-29 | for a non-negative balance, eligibility is exactly "balance covers the unlock cost" |
| CoinEconomics.AdLimitMonotone | server/coinEconomics.ts:34-36 | once reached, the ad cap stays reached as the count grows |
| Storage.TxsOf | server/storage.ts:186 | a user's ledger rows all belong to that user and are no more than the whole ledger |
| Storage.TxsOfSelectsExactly | server/storage.ts:186 | a user's ledger holds each of their rows as often as the whole ledger does, and no one else's row |
| Storage.TxsOfPrefix | server/storage.ts:186 | the ledger of an earlier log is a prefix of the user's ledger of a later one: order kept, nothing rewritten |
| Storage.GetCoinBalance | server/storage.ts:177-180 | the stored balance, or 0 for a missing user or a NULL balance |
| Storage.AddCoinTransaction | server/storage.ts:167-175 | appends exactly the given row and sets the owner's balance to its `balanceAfter`; nobody else's balance, no premium column and no other table changes; `balanceBefore` and the sign are not checked |
| Storage.NewestFirst | server/storage.ts:186-187 | a user's rows newest first are the reversal of their rows in append order |
| Storage.GetCoinHistory | server/storage.ts:182-189 | returns min(limit, number of the user's rows) rows: the user's rows in reverse append order, cut at the limit |
| Storage.HistoryRowsAreNewestFirst | server/storage.ts:182-189 | every history row belongs to the user, and row k is the k-th most recent |
| Storage.CreateOrUpdateSubscription | server/storage.ts:193-211 | overwrites the user's existing row in place or appends one, so one row per user is kept; other users' rows stay; on both paths the user becomes premium until the new expiry and keeps their coins |
| Storage.GetActiveSubscription | server/storage.ts:213-220 | yields a stored active row of the user, and none exactly when the user has no active row |
| Storage.CancelSubscription | server/storage.ts:226-234 | no-op without an active row; otherwise only the status of that row changes, from active to canceled; expiry and users are untouched, and afterwards no active row remains |
| Storage.UnlockEpisode | server/storage.ts:464-470 | always appends one grant row with the given method, even for a pair already granted |
| Storage.IsEpisodeUnlocked | server/storage.ts:472-483 | true exactly when some grant row matches user and episode |
| Storage.UnlockedStaysUnlocked | server/storage.ts:464-483 | an episode unlocked in a state stays unlocked in every state whose grants extend it |
| Storage.UnlockEpisodeUnlocks | server/storage.ts:464-483 | storing a grant makes the episode unlocked |
| Storage.IsFavorite | server/storage.ts:449-455 | true exactly when the (user, series) row is stored |
| Storage.ToggleFavorite | server/storage.ts:434-447 | removes one existing row and answers false, or appends one and answers true; on a table without repeats it keeps rows unique and afterwards `IsFavorite` equals the answer |
| Storage.ToggleInsertIsGuarded | server/storage.ts:434-446 | the toggle's insert is the table's plain insert of a row the lookup found absent, so rows stay unique |
| Storage.ToggleTwiceRestores | server/storage.ts:434-455 | two toggles restore the favourites as a collection and every `IsFavorite` answer, and the exact sequence when the pair started unmarked |
| Storage.SaveWatchProgress | server/storage.ts:393-418 | updates the first (user, episode) row in place, setting the time to now and the progress only when one is supplied, or appends a row with the table defaults (progress 0, time now) for omitted values and the supplied time otherwise; other rows and tables are untouched and rows stay unique per pair |
| Schema.InsertWatchRow | shared/schema.ts:66-73 | an inserted progress row keeps the supplied columns, with progress defaulting to 0 and the time to now |
| ReceiptVerification.GetGoogleAccessToken | server/receipt-verification.ts:185-222 | no access token is ever produced, whatever the credentials |
| ReceiptVerification.ClassifyGoogleResponse | server/receipt-verification.ts:88-107 | valid exactly for a 2xx body with purchase state 0; otherwise the exception text, the HTTP failure or "Purchase has been canceled" |
| ReceiptVerification.VerifyGooglePlayReceipt | server/receipt-verification.ts:42-108 | without credentials: valid simulated data echoing package, product and token, with an order id starting "simulated_"; with credentials: always "Failed to get Google access token" |
| ReceiptVerification.GoogleValidMeansSimulated | server/receipt-verification.ts:50-76 | a Google verification is valid exactly when no credentials are configured |
| ReceiptVerification.AppleEnvironment | server/receipt-verification.ts:114 | production exactly when NODE_ENV is "production", sandbox otherwise |
| ReceiptVerification.AppleVerifyUrl | server/receipt-verification.ts:114-118 | the production or sandbox App Store endpoint, following the environment |
| ReceiptVerification.ClassifyAppleResponse | server/receipt-verification.ts:165-182 | valid exactly for a 2xx body with status 0; other statuses are reported in the error text |
| ReceiptVerification.VerifyAppleReceipt | server/receipt-verification.ts:110-183 | without a shared secret: valid simulated data with status 0 and the input as latest receipt; with one, the store's answer decides |
| ReceiptVerification.AppleValidNeedsStoreApproval | server/receipt-verification.ts:154-178 | with a shared secret, validity requires the App Store itself to answer status 0 |
| Auth.ExtractTokenFromHeader | server/auth.ts:64-69 | a token exactly when the header starts with "Bearer " (case-sensitive), and then "Bearer " plus the token is the header |
| Auth.ExtractRoundTrip | server/auth.ts:64-69 | extracting from "Bearer " + t gives t back, for every t |
| Auth.Authenticate | server/routes.ts:9-21 | a missing or empty token is refused as missing; a present token is refused as invalid exactly when the verifier rejects it, and otherwise the request proceeds as the verifier's user |
| Auth.BareBearerIsMissing | server/routes.ts:11-14 | "Bearer " alone extracts the empty token, which the middleware treats as missing |
| Seed.UnlockTypeFor | server/seed.ts:201 | free up to the free count, ad for the next five, premium beyond |
| Seed.EpisodeAt | server/seed.ts:193-203 | episode i of the series, titled "Episode i", lasting 90 to 179 seconds, locked exactly when past the free count and exactly when not free |
| Seed.GenerateEpisodes | server/seed.ts:180-206 | exactly max(total, 0) episodes, numbered 1..total in order, each as `EpisodeAt` describes |
| Api.VerifyOnPlatform | server/routes.ts:650-666 | verification runs exactly for "android" (Google Play with the configured or default package) and "ios" (App Store) |
| Api.PostingRow | server/routes.ts:463-470 | a posting row starts at the user's current balance and ends `amount` later |
| Api.Post | server/routes.ts:683-690 | a coin movement appends its posting row and moves only the owner's balance, by `amount` |
| UnlockRoutes.DebitAndGrant | server/routes.ts:462-477 | a paid unlock debits the cost from the current balance, then stores one coins grant |
| UnlockRoutes.UnlockGeneric | server/routes.ts:427-485 | unknown user: not found; premium: one premium grant and no ledger row; balance below 2: `{required 2, current}` with no change; otherwise a debit of 2 with reason "Episode unlock", one coins grant, and `newBalance` = balance - 2 |
| UnlockRoutes.GenericUnlockIgnoresMethod | server/routes.ts:429 | the requested unlock method never changes the outcome |
| UnlockRoutes.UnlockWithCoins | server/routes.ts:500-572 | unknown user: not found; premium: one premium grant with its message; already unlocked: refused before any debit; balance below 2: `{required 2, current, needed}`; otherwise debit 2, one coins grant, `coinsDeducted` 2 and `newBalance` |
| UnlockRoutes.ExplicitUnlockChargesOnce | server/routes.ts:520-524 | right after a paid explicit unlock, a second request for the episode is refused |
| UnlockRoutes.GenericUnlockChargesAgain | server/routes.ts:451-477 | two generic requests both succeed, debit 4 coins in total and store two grants for the same episode |
| CoinRoutes.EarnCoins | server/routes.ts:586-610 | refused exactly for a missing or non-positive amount; otherwise one "earn" row with the reason or "rewarded_ad", the balance up by the amount, and the computed balance reported |
| CoinRoutes.EarnWithoutAccount | server/routes.ts:586-603 | for a missing account, earning writes a ledger row and reports a balance while the stored balance stays 0 |
| CoinRoutes.HistoryLimit | server/routes.ts:614 | page size 50 by default and never above 100 |
| CoinRoutes.CoinHistory | server/routes.ts:612-621 | at most 100 rows, all the user's own, newest first |
| CoinRoutes.PackageCoins | server/routes.ts:635-645 | the four product ids buy 100, 550, 1400 and 3000 coins; every other id is unknown |
| CoinRoutes.PurchaseCheck | server/routes.ts:650-662 | a coin purchase is verified exactly on android and ios: Google Play gets the purchase token, or the receipt when no token is given, and the App Store gets the receipt |
| CoinRoutes.VerifyPurchase | server/routes.ts:624-705 | refuses, in order and without change, missing fields, unknown product, other platforms, store rejection with its details; success exactly when all pass, crediting exactly the package's coins with reason `iap_purchase_<product>_<platform>` |
| AdRoutes.WatchAd | server/routes.ts:709-774 | unknown user: not found; premium: refused; 10 or more views today: `{limit 10, watched}`; otherwise 3 coins credited, today's counter up by one, every other counter and balance unchanged |
| AdRoutes.WatchRepeatedly | server/routes.ts:709-774 | of n ad requests by a registered non-premium user exactly min(n, 10 - views so far) pay out, 3 coins each, and the counter advances by that many; for an unknown or premium user, or a full day, none pays and the store is unchanged |
| BillingRoutes.PlanFor | server/routes.ts:884-895 | the first of "weekly" (+7 days), "monthly" (+1 month), "yearly" (+1 year) the id contains picks the plan; with none, monthly expiring now |
| BillingRoutes.WeeklyProductIsWeekly | server/routes.ts:886-888 | the advertised weekly product is a weekly plan for 7 days |
| BillingRoutes.BillingStatus | server/routes.ts:815-841 | subscribed exactly when an active row exists; the row is shown as expired exactly when now is past its expiry; `isPremium` is the stored flag |
| BillingRoutes.SubscribedIgnoresClock | server/routes.ts:833 | the subscribed answer is the same at every time |
| BillingRoutes.SubscriptionCheck | server/routes.ts:855-881 | a subscription is verified exactly on android and ios: Google Play gets the purchase token, and the App Store gets the receipt, or the purchase token when no receipt is given |
| BillingRoutes.SubscriptionValues | server/routes.ts:898-906 | the stored subscription is active, for the derived plan, expiring and renewing at the derived expiry, with the token and product |
| BillingRoutes.BillingVerify | server/routes.ts:843-921 | refuses without change missing params, other platforms, store rejection; success exactly when all pass; it stores the derived subscription and an active row for the user, makes the user premium until expiry, leaves every other account and every other user's subscription row as it was, updates the user's row in place when one exists and otherwise appends the new row, keeps one row per user, and moves no coins |
| BillingRoutes.BillingCancel | server/routes.ts:923-940 | fails exactly when there is no active row; otherwise the user's active row is marked canceled and it is the only kind of row that changes, expiry, user and every other table kept, so the premium flag survives |
| Ledger.ChainedEnd | server/routes.ts:463-470 | a chained run of ledger rows ends at its start plus the sum of its amounts |
| Ledger.ChainedSnoc | server/routes.ts:463-470 | a row that starts where the run ends keeps the run chained |
| Ledger.BalanceNonNegative | server/routes.ts:451-460 | under the ledger invariant no cached balance is negative |
| Ledger.PostingPreservesLedger | server/storage.ts:167-175 | a posting row from the current balance to a non-negative one keeps every registered user's ledger consistent |
| Ledger.QuietStepPreservesLedger | server/storage.ts:193-211 | a step writing no row and moving no balance keeps the ledger consistent |
| Ledger.PaidStepPreservesInvariant | server/routes.ts:589-603 | unlocks, earning, ads and purchases keep the ledger chain, non-negativity and table uniqueness |
| Ledger.StepPreservesInvariant | server/routes.ts:427-940 | every request keeps the invariant and the set of users, and only adds grants |
| Ledger.RunPreservesInvariant | server/routes.ts:427-940 | the same holds after any sequence of `Ledger.Request`s, starting from a store that satisfies the invariant |
| Ledger.PremiumNeverCleared | server/storage.ts:203-209 | no request clears a user's premium flag: upserts set it, cancellation and expiry leave it |
| Ledger.PremiumIsForever | server/storage.ts:193-234 | a premium user stays premium after any sequence of `Ledger.Request`s |
| Ledger.FreshStoreIsConsistent | shared/schema.ts:16 | a store with no ledger rows, zero balances, one subscription per user and no repeated favourite or progress rows satisfies the invariant |
| Ledger.BalanceIsSumOfAmounts | server/routes.ts:463-470 | after any sequence of `Ledger.Request`s from a store that satisfies the invariant, a registered user's balance is the sum of their ledger amounts, is never negative, and unlocked episodes stay unlocked |
| Scenarios.Fresh | shared/schema.ts:14-16 | a one-account store in which the account holds 0 coins and the invariant holds |
| Scenarios.EarnThenUnlock | server/routes.ts:500-610 | earning 5 and unlocking leaves 3 coins and the episode unlocked; a second explicit unlock is refused |
| Scenarios.NewAccountCannotPay | server/routes.ts:451-538 | a new account gets `{2, 0}` from the generic and `{2, 0, 2}` from the explicit endpoint |
| Scenarios.TenthAdClosesTheDay | server/routes.ts:731-759 | with 9 views the next ad pays and counts 10; the one after is refused with limit 10 and count 10 |
| Scenarios.FailedPurchaseChangesNothing | server/routes.ts:668-674 | with Google credentials set, a purchase is refused with "Failed to get Google access token" |
| Scenarios.SimulatedPurchaseCredits | server/routes.ts:676-690 | a simulated 500-pack purchase credits 550 coins |
| Scenarios.PremiumOutlivesCancel | server/storage.ts:226-234 | after subscribing and cancelling, status says not subscribed yet premium, and unlocks stay free with no ledger row |
| Scenarios.ExpiredButSubscribed | server/routes.ts:821-835 | an active row past its expiry is shown as expired while `subscribed` stays true |

## Left out

- HTTP routing, status codes, JSON parsing and logging: handlers return a `Result`, with an
  error tag per refusal.
- Concurrency. The source reads a balance and writes the new one in separate database calls,
  with no transaction; each handler is modelled as one atomic step.
- `createdAt` ordering of the coin history: rows are ordered by their position in the
  append-only ledger. This assumes the clock never runs backwards and breaks ties by
  insertion.
- CoinRoutes.HistoryLimit: a negative or non-numeric `limit` query (`parseInt` yielding NaN)
  is not modelled; the query is an optional natural number.
- CoinRoutes.EarnCoins: only integer amounts are modelled. A string or fractional `amount`
  in the request body, and a `null` reason, are not.
- CoinRoutes.PackageCoins: inherited object keys such as "constructor" are not modelled as
  matching the package table.
- The ad counter lives in `req.session`, which is created fresh for each request, so in
  practice it never persists. The model keeps it as state (`State.adViews`) so that the
  intended daily cap can be stated. The ISO day key is an integer `Day`.
- Calendar arithmetic (`setDate`, `setMonth`, `setFullYear`): the caller supplies it as a
  `Calendar`.
- `daysRemaining` (a float with a 4.3 factor), plan prices and the plans listing: floating
  point.
- Watch progress is an opaque real. The route spreads the request body over `{ userId }`
  (server/routes.ts:239-242), so a body may name another user; `WatchInsert.userId` is taken
  as given, which covers that.
- Storage.SaveWatchProgress: a body field sent as JSON `null` is treated like an omitted one,
  whereas the database would store NULL; the model has no NULL progress or time.
- Rating and catalogue queries are not part of this model.
- The Google Play and App Store HTTP requests, `process.env`, `Date.now()` and thrown
  exceptions are inputs (`GoogleEnv`, `AppleEnv`, `Env.now`, `Http.Threw`). The JWT
  assertion built inside `getGoogleAccessToken` is dropped, since it never yields a token.
- JWT signing and verification, password hashing and guest-name randomness are foreign.
  Token verification enters `Auth.Authenticate` as a function parameter.
- Seeding: the random duration is an input roll in [0, 90). The database inserts of
  `seedDatabase` are I/O. The thumbnail and video URLs are built as in the seeder, but
  no contract speaks about them.
- Account creation is not a request of `Ledger.Request`. The invariant is stated for
  accounts present in the starting store. The unauthenticated `POST /api/users`
  (server/routes.ts:264-271, server/storage.ts:281-284) stores the request body as given, so
  it can create an account with a client-supplied `coinBalance` and `isPremium: true` (values
  `Schema.InsertUserRow` accepts) and no ledger row. The invariant says nothing about
  accounts created that way.
- Every coin-transaction row has a non-NULL integer amount, both balances and a type. This
  holds by construction of `Schema.CoinTransaction`, so no separate lemma states it.

=== FILE: ad_routes.dfy ===
/** The rewarded-ad handler and its per-day view counter. */
module AdRoutes {
  import opened Wrappers
  import opened Text
  import opened Schema
  import opened Storage
  import opened CoinEconomics
  import opened Api

  /** Ads `u` has watched on `day`; zero when nothing is recorded. */
  function AdsWatched(s: State, u: Id, day: Day): nat {
    if (u, day) in s.adViews then s.adViews[(u, day)] else 0
  }

  datatype AdReply = AdReply(coinsEarned: int, newBalance: int, adsWatchedToday: nat, maxAdsPerDay: int)

  /** The reason recorded for the `n`-th ad of the day. */
  function AdReason(n: nat): string {
    "Watched advertisement (" + NatToString(n) + "/" + NatToString(MAX_ADS_PER_DAY) + ")"
  }

  /** POST /api/ads/watch. Unknown and premium users are refused; so is a user who has
      already watched ten ads today. Otherwise the user is credited three coins and the day's
      counter goes up by one. */
  function WatchAd(s: State, u: Id, day: Day): (r: Result<Reply<AdReply>, ApiError>)
    ensures r.Ok? <==> u in s.users && !s.users[u].isPremium && AdsWatched(s, u, day) < 10
    ensures u !in s.users ==> r == Err(UserNotFound)
    ensures u in s.users && s.users[u].isPremium ==> r == Err(PremiumIneligible)
    ensures u in s.users && !s.users[u].isPremium && AdsWatched(s, u, day) >= 10 ==>
              r == Err(DailyLimitExceeded(10, AdsWatched(s, u, day)))
    ensures r.Ok? ==>
              var b := GetCoinBalance(s, u);
              var n := AdsWatched(s, u, day) + 1;
              var t := r.value.state;
              && t.transactions == s.transactions + [CoinTransaction(u, 3, AdReward, Some(AdReason(n)), b, b + 3)]
              && GetCoinBalance(t, u) == b + 3
              && (forall v :: v != u ==> GetCoinBalance(t, v) == GetCoinBalance(s, v))
              && AdsWatched(t, u, day) == n
              && (forall v, d :: (v, d) != (u, day) ==> AdsWatched(t, v, d) == AdsWatched(s, v, d))
              && r.value.body == AdReply(3, b + 3, n, 10)
              && SamePremium(s, t)
              && t.grants == s.grants && t.subscriptions == s.subscriptions
              && t.favorites == s.favorites && t.watchHistory == s.watchHistory
  {
    if u !in s.users then Err(UserNotFound)
    else if s.users[u].isPremium then Err(PremiumIneligible)
    else
      var watched := AdsWatched(s, u, day);
      if HasExceededDailyAdLimit(watched) then Err(DailyLimitExceeded(MAX_ADS_PER_DAY, watched))
      else
        var reward := GetAdReward();
        var current := GetCoinBalance(s, u);
        var n := watched + 1;
        var t := Post(s, u, reward, AdReward, AdReason(n));
        Ok(Reply(t.(adViews := t.adViews[(u, day) := n]), AdReply(reward, current + reward, n, MAX_ADS_PER_DAY)))
  }

  /** `n` ad requests in a row on one day: the final state and how many of them paid out.
      The daily cap: for a registered non-premium user exactly as many pay out as the counter
      has room for below ten, each paying three coins; for anyone else none does and nothing
      changes. From a fresh day the tenth request pays and the eleventh does not. */
  function WatchRepeatedly(s: State, u: Id, day: Day, n: nat): (r: (State, nat))
    ensures r.1 <= n
    ensures u in s.users && !s.users[u].isPremium && AdsWatched(s, u, day) <= 10 ==>
              && r.1 == Min(n, 10 - AdsWatched(s, u, day))
              && AdsWatched(r.0, u, day) == AdsWatched(s, u, day) + r.1
              && GetCoinBalance(r.0, u) == GetCoinBalance(s, u) + 3 * r.1
    ensures u !in s.users || s.users[u].isPremium || AdsWatched(s, u, day) >= 10 ==> r == (s, 0)
    decreases n
  {
    if n == 0 then (s, 0)
    else
      match WatchAd(s, u, day)
      case Ok(reply) =>
        var rest := WatchRepeatedly(reply.state, u, day, n - 1);
        (rest.0, rest.1 + 1)
      case Err(_) => WatchRepeatedly(s, u, day, n - 1)
  }
}

=== FILE: api.dfy ===
/** What every request handler shares: the error outcomes, the shape of a successful reply,
    the server-side inputs of the paid flows, and the single way a handler moves coins. */
module Api {
  import opened Wrappers
  import opened Text
  import opened Schema
  import opened Storage
  import opened ReceiptVerification

  /** The expected business failures a handler reports. A failed request changes nothing. */
  datatype ApiError =
    | UserNotFound
    | AlreadyUnlocked
    | InsufficientCoins(required: int, current: int, needed: Option<int>)
    | InvalidAmount
    | MissingPurchaseFields
    | UnknownProduct
    | UnknownPlatform
    | VerificationFailed(details: Option<string>)
    | PremiumIneligible
    | DailyLimitExceeded(limit: int, watched: int)
    | MissingVerificationParams
    | NoActiveSubscription

  /** A successful request: the state after it and the body sent back. */
  datatype Reply<+T> = Reply(state: State, body: T)

  /** The inputs of the paid flows that come from outside the request: the clock, the
      Android package-name variable, and the two stores' environments and answers. */
  datatype Env = Env(now: Timestamp, androidPackageName: Option<string>, google: GoogleEnv, apple: AppleEnv)

  /** Whether the user exists and is flagged premium. */
  predicate IsPremiumUser(s: State, u: Id) {
    u in s.users && s.users[u].isPremium
  }

  /** The configured Android package, or the built-in one. */
  function AndroidPackage(env: Env): string {
    if Present(env.androidPackageName) then env.androidPackageName.value else "com.premiumdramastream"
  }

  /** Receipt verification on the platform the client named: Google Play for "android", the
      App Store for "ios", and no verification at all (None) for anything else. */
  function VerifyOnPlatform(env: Env, platform: string, productId: string, googleToken: string, appleReceipt: string): (v: Option<Verification>)
    ensures v.Some? <==> platform == "android" || platform == "ios"
    ensures platform == "android" ==> v == Some(VerifyGooglePlayReceipt(env.google, env.now, AndroidPackage(env), productId, googleToken))
    ensures platform == "ios" ==> v == Some(VerifyAppleReceipt(env.apple, env.now, appleReceipt))
  {
    if platform == "android" then Some(VerifyGooglePlayReceipt(env.google, env.now, AndroidPackage(env), productId, googleToken))
    else if platform == "ios" then Some(VerifyAppleReceipt(env.apple, env.now, appleReceipt))
    else None
  }

  /** The ledger row a handler writes to move `amount` coins for `u` in state `s`: it starts
      from the cached balance and ends `amount` away from it. */
  function PostingRow(s: State, u: Id, amount: int, txType: TxType, reason: string): (t: CoinTransaction)
    ensures t.userId == u && t.amount == amount && t.txType == txType && t.reason == Some(reason)
    ensures t.balanceBefore == GetCoinBalance(s, u)
    ensures t.balanceAfter == t.balanceBefore + amount
  {
    var b := GetCoinBalance(s, u);
    CoinTransaction(u, amount, txType, Some(reason), b, b + amount)
  }

  /** One coin movement as every handler performs it: read the cached balance, append the
      posting row, and leave the balance `amount` further on. */
  function Post(s: State, u: Id, amount: int, txType: TxType, reason: string): (r: State)
    ensures r.transactions == s.transactions + [PostingRow(s, u, amount, txType, reason)]
    ensures u in s.users ==> GetCoinBalance(r, u) == GetCoinBalance(s, u) + amount
    ensures forall v :: v != u ==> GetCoinBalance(r, v) == GetCoinBalance(s, v)
    ensures SamePremium(s, r) && SameEntitlements(s, r)
  {
    AddCoinTransaction(s, PostingRow(s, u, amount, txType, reason))
  }
}

=== FILE: auth.dfy ===
/** Bearer-token extraction from the `Authorization` header, and the gate the protected
    routes put in front of their handlers. Token signing and verification are a foreign
    library and enter as a function parameter. */
module Auth {
  import opened Wrappers
  import opened Text
  import opened Schema

  const BEARER := "Bearer "

  /** The token of a `Bearer` header: absent for a missing header or one that does not start
      with exactly "Bearer " (case-sensitive); otherwise the header minus its first 7 characters. */
  function ExtractTokenFromHeader(header: Option<string>): (token: Option<string>)
    ensures token.Some? <==> header.Some? && StartsWith(header.value, BEARER)
    ensures token.Some? ==> BEARER + token.value == header.value
  {
    if !Present(header) || !StartsWith(header.value, BEARER) then None
    else Some(header.value[7..])
  }

  /** Prefixing any token with "Bearer " and extracting it gives the token back. */
  lemma ExtractRoundTrip(t: string)
    ensures ExtractTokenFromHeader(Some(BEARER + t)) == Some(t)
  {
    assert (BEARER + t)[..7] == BEARER;
    assert (BEARER + t)[7..] == t;
  }

  datatype AuthError = MissingToken | InvalidToken

  /** The middleware: an absent or empty token is a missing token, one the verifier rejects
      is invalid, otherwise the request proceeds as the token's user. */
  function Authenticate(header: Option<string>, verifyToken: string -> Option<Id>): (r: Result<Id, AuthError>)
    ensures r == Err(MissingToken) <==> !Present(ExtractTokenFromHeader(header))
    ensures r.Ok? ==> exists t :: ExtractTokenFromHeader(header) == Some(t) && verifyToken(t) == Some(r.value)
    ensures var token := ExtractTokenFromHeader(header);
            Present(token) ==>
              && (r.Ok? <==> verifyToken(token.value).Some?)
              && (r == Err(InvalidToken) <==> verifyToken(token.value).None?)
              && (r.Ok? ==> Some(r.value) == verifyToken(token.value))
  {
    var token := ExtractTokenFromHeader(header);
    if !Present(token) then Err(MissingToken)
    else match verifyToken(token.value)
      case None => Err(InvalidToken)
      case Some(u) => Ok(u)
  }

  /** A bare "Bearer " header extracts the empty token, which the middleware then treats as missing. */
  lemma BareBearerIsMissing(verifyToken: string -> Option<Id>)
    ensures ExtractTokenFromHeader(Some(BEARER)) == Some("")
    ensures Authenticate(Some(BEARER), verifyToken) == Err(MissingToken)
  {
    ExtractRoundTrip("");
    assert BEARER + "" == BEARER;
  }
}

=== FILE: billing_routes.dfy ===
/** The subscription handlers: status, store verification with plan and expiry derivation,
    and cancellation. */
module BillingRoutes {
  import opened Wrappers
  import opened Text
  import opened Schema
  import opened Storage
  import opened ReceiptVerification
  import opened Api

  /** Calendar arithmetic on timestamps: add days, months or years. The rules of the
      calendar itself are not modelled. */
  datatype Calendar = Calendar(
    addDays: (Timestamp, int) -> Timestamp,
    addMonths: (Timestamp, int) -> Timestamp,
    addYears: (Timestamp, int) -> Timestamp)

  /** The plan a product id buys and when it expires, by the first of "weekly", "monthly",
      "yearly" the id contains; an id containing none of them is a monthly plan that
      expires at once. */
  function PlanFor(productId: string, now: Timestamp, cal: Calendar): (r: (Plan, Timestamp))
    ensures Contains(productId, "weekly") ==> r == (Weekly, cal.addDays(now, 7))
    ensures !Contains(productId, "weekly") && Contains(productId, "monthly") ==>
              r == (Monthly, cal.addMonths(now, 1))
    ensures !Contains(productId, "weekly") && !Contains(productId, "monthly") && Contains(productId, "yearly") ==>
              r == (Yearly, cal.addYears(now, 1))
    ensures !Contains(productId, "weekly") && !Contains(productId, "monthly") && !Contains(productId, "yearly") ==>
              r == (Monthly, now)
  {
    if Contains(productId, "weekly") then (Weekly, cal.addDays(now, 7))
    else if Contains(productId, "monthly") then (Monthly, cal.addMonths(now, 1))
    else if Contains(productId, "yearly") then (Yearly, cal.addYears(now, 1))
    else (Monthly, now)
  }

  /** The advertised weekly product is a weekly plan. */
  lemma WeeklyProductIsWeekly(now: Timestamp, cal: Calendar)
    ensures PlanFor("com.premiumdramastream.premium.weekly", now, cal) == (Weekly, cal.addDays(now, 7))
  {
    var p := "com.premiumdramastream.premium.weekly";
    assert p[31..37] == "weekly";
    assert OccursAt(p, "weekly", 31);
    ContainsIffOccurs(p, "weekly");
  }

  datatype StatusReply = StatusReply(subscribed: bool, isPremium: bool, subscription: Option<Subscription>)

  /** GET /api/billing/status. The user's active row is reported with status "expired" when
      `now` is past its expiry, yet `subscribed` only asks whether an active row exists, and
      `isPremium` is the stored flag. */
  function BillingStatus(s: State, u: Id, now: Timestamp): (r: StatusReply)
    ensures r.subscribed <==> exists i :: 0 <= i < |s.subscriptions| && s.subscriptions[i].userId == u && s.subscriptions[i].status == Active
    ensures r.isPremium <==> IsPremiumUser(s, u)
    ensures r.subscription.Some? <==> r.subscribed
    ensures r.subscription.Some? ==>
              && r.subscription.value.userId == u
              && r.subscription.value.(status := Active) in s.subscriptions
              && (r.subscription.value.status == Expired <==> now > r.subscription.value.expiresAt)
              && (r.subscription.value.status != Expired ==> r.subscription.value.status == Active)
  {
    var active := GetActiveSubscription(s, u);
    var shown :=
      match active
      case Some(sub) => Some(if now > sub.expiresAt then sub.(status := Expired) else sub)
      case None => None;
    StatusReply(shown.Some?, u in s.users && s.users[u].isPremium, shown)
  }

  /** Whether the status is subscribed does not depend on the clock: a subscription past its
      expiry still counts as subscribed while its row is active. */
  lemma SubscribedIgnoresClock(s: State, u: Id, now1: Timestamp, now2: Timestamp)
    ensures BillingStatus(s, u, now1).subscribed == BillingStatus(s, u, now2).subscribed
  {
  }

  /** The store check of a subscription: Google Play with the purchase token, or the App
      Store with the receipt (or, lacking one, the purchase token). */
  function SubscriptionCheck(env: Env, platform: string, productId: string, purchaseToken: string, receiptData: Option<string>): (v: Option<Verification>)
    ensures v.Some? <==> platform == "android" || platform == "ios"
    ensures platform == "android" ==>
              v == Some(VerifyGooglePlayReceipt(env.google, env.now, AndroidPackage(env), productId, purchaseToken))
    ensures platform == "ios" && Present(receiptData) ==> v == Some(VerifyAppleReceipt(env.apple, env.now, receiptData.value))
    ensures platform == "ios" && !Present(receiptData) ==> v == Some(VerifyAppleReceipt(env.apple, env.now, purchaseToken))
  {
    var appleReceipt := if Present(receiptData) then receiptData.value else purchaseToken;
    VerifyOnPlatform(env, platform, productId, purchaseToken, appleReceipt)
  }

  datatype VerifyReply = VerifyReply(entitled: bool, expiryDate: Timestamp, subscription: Subscription)

  /** The upsert a verified subscription performs. */
  function SubscriptionValues(u: Id, productId: string, purchaseToken: string, now: Timestamp, cal: Calendar): (d: SubscriptionInsert)
    ensures d.userId == u && d.status == Active
    ensures d.plan == PlanFor(productId, now, cal).0
    ensures d.expiresAt == PlanFor(productId, now, cal).1 && d.renewsAt == Some(d.expiresAt)
    ensures d.purchaseToken == Some(purchaseToken) && d.googleProductId == Some(productId)
  {
    var (plan, expiry) := PlanFor(productId, now, cal);
    SubscriptionInsert(u, plan, Some(purchaseToken), Some(productId), Active, expiry, Some(expiry))
  }

  /** POST /api/billing/verify. Refuses, without any change: missing platform, product or
      purchase token; a platform other than android or ios; a purchase the store rejects.
      Otherwise stores an active subscription for the derived plan and expiry, marks the
      user premium until then, and keeps one subscription row per user. */
  function BillingVerify(s: State, u: Id, env: Env, cal: Calendar, platform: Option<string>, productId: Option<string>,
                         purchaseToken: Option<string>, receiptData: Option<string>): (r: Result<Reply<VerifyReply>, ApiError>)
    ensures !Present(platform) || !Present(productId) || !Present(purchaseToken) ==> r == Err(MissingVerificationParams)
    ensures (Present(platform) && Present(productId) && Present(purchaseToken)
             && platform.value != "android" && platform.value != "ios") ==>
              r == Err(UnknownPlatform)
    ensures Present(platform) && Present(productId) && Present(purchaseToken) ==>
              var v := SubscriptionCheck(env, platform.value, productId.value, purchaseToken.value, receiptData);
              v.Some? && !v.value.valid ==> r == Err(VerificationFailed(v.value.error))
    ensures r.Ok? <==>
              && Present(platform) && Present(productId) && Present(purchaseToken)
              && var v := SubscriptionCheck(env, platform.value, productId.value, purchaseToken.value, receiptData);
              v.Some? && v.value.valid
    ensures r.Ok? ==>
              var d := SubscriptionValues(u, productId.value, purchaseToken.value, env.now, cal);
              var t := r.value.state;
              && r.value.body.entitled
              && r.value.body.expiryDate == d.expiresAt
              && HasValues(r.value.body.subscription, d)
              && r.value.body.subscription in t.subscriptions
              && GetActiveSubscription(t, u).Some?
              && t.users.Keys == s.users.Keys
              && (u in s.users ==> t.users[u].isPremium && t.users[u].premiumExpiresAt == Some(d.expiresAt))
              && (forall v :: v in s.users && v != u ==> t.users[v] == s.users[v])
              && (OneSubscriptionPerUser(s.subscriptions) ==> OneSubscriptionPerUser(t.subscriptions))
              && (HasSubscriptionRow(s.subscriptions, u) ==> |t.subscriptions| == |s.subscriptions|)
              && (!HasSubscriptionRow(s.subscriptions, u) ==> t.subscriptions == s.subscriptions + [r.value.body.subscription])
              && (forall i :: 0 <= i < |s.subscriptions| && s.subscriptions[i].userId != u ==>
                    i < |t.subscriptions| && t.subscriptions[i] == s.subscriptions[i])
              && (forall v :: GetCoinBalance(t, v) == GetCoinBalance(s, v))
              && t.transactions == s.transactions && t.grants == s.grants
              && t.adViews == s.adViews && t.favorites == s.favorites && t.watchHistory == s.watchHistory
  {
    if !Present(platform) || !Present(productId) || !Present(purchaseToken) then Err(MissingVerificationParams)
    else
      match SubscriptionCheck(env, platform.value, productId.value, purchaseToken.value, receiptData)
      case None => Err(UnknownPlatform)
      case Some(v) =>
        if !v.valid then Err(VerificationFailed(v.error))
        else
          var d := SubscriptionValues(u, productId.value, purchaseToken.value, env.now, cal);
          var (t, sub) := CreateOrUpdateSubscription(s, d, env.now);
          assert ActiveOf(u)(sub);
          Ok(Reply(t, VerifyReply(true, d.expiresAt, sub)))
  }

  /** POST /api/billing/cancel. Fails when the user has no active subscription; otherwise
      marks it canceled, leaving its expiry and the user's premium flag as they were. */
  function BillingCancel(s: State, u: Id): (r: Result<Reply<string>, ApiError>)
    ensures r.Err? <==> GetActiveSubscription(s, u).None?
    ensures r.Err? ==> r.error == NoActiveSubscription
    ensures r.Ok? ==>
              var t := r.value.state;
              && t.users == s.users && t.transactions == s.transactions && t.grants == s.grants
              && t.adViews == s.adViews && t.favorites == s.favorites && t.watchHistory == s.watchHistory
              && (OneSubscriptionPerUser(s.subscriptions) ==> OneSubscriptionPerUser(t.subscriptions))
              && |t.subscriptions| == |s.subscriptions|
              && (forall i :: 0 <= i < |s.subscriptions| ==>
                    t.subscriptions[i].expiresAt == s.subscriptions[i].expiresAt
                    && t.subscriptions[i].userId == s.subscriptions[i].userId)
              && (OneSubscriptionPerUser(s.subscriptions) ==> GetActiveSubscription(t, u).None?)
              && (forall i :: 0 <= i < |s.subscriptions| && t.subscriptions[i] != s.subscriptions[i] ==>
                    && s.subscriptions[i].userId == u && s.subscriptions[i].status == Active
                    && t.subscriptions[i] == s.subscriptions[i].(status := Canceled))
              && (exists i :: 0 <= i < |s.subscriptions| && s.subscriptions[i] == GetActiveSubscription(s, u).value
                    && t.subscriptions[i].status == Canceled)
  {
    if GetActiveSubscription(s, u).None? then Err(NoActiveSubscription)
    else Ok(Reply(CancelSubscription(s, u), "Subscription canceled. Your premium benefits will end on expiry date."))
  }
}

=== FILE: coin_economics.dfy ===
/** The coin-economics policy: fixed prices and rewards, and the pure decisions built on
    them. */
module CoinEconomics {

  const COINS_PER_VIDEO := 2
  const COINS_PER_AD := 3
  const MAX_ADS_PER_DAY := 10
  const DAILY_LOGIN_BONUS := 2
  const WATCH_STREAK_BONUS := 5
  const REFERRAL_BONUS := 25
  const SHARE_EPISODE_REWARD := 5

  /** Whether a user holding `userCoins` may unlock an episode: premium users always may,
      everyone else needs at least the price of one video. */
  function CanUnlockEpisode(userCoins: int, isPremium: bool): (r: bool)
    ensures isPremium ==> r
    ensures !isPremium ==> (r <==> userCoins >= 2)
  {
    if isPremium then true else userCoins >= COINS_PER_VIDEO
  }

  /** Coins deducted for an unlock: nothing for premium users, two otherwise. */
  function GetUnlockCost(isPremium: bool): (r: int)
    ensures isPremium ==> r == 0
    ensures !isPremium ==> r == 2
  {
    if isPremium then 0 else COINS_PER_VIDEO
  }

  /** Whether today's ad views have reached the daily cap of ten. */
  function HasExceededDailyAdLimit(adsWatchedToday: int): (r: bool)
    ensures r <==> adsWatchedToday >= 10
  {
    adsWatchedToday >= MAX_ADS_PER_DAY
  }

  /** Coins credited for one ad view. */
  function GetAdReward(): (r: int)
    ensures r == 3
  {
    COINS_PER_AD
  }

  /** Approximate videos per month a user can unlock from ad rewards alone:
      floor(10 * 3 / 2) per day, times 30 days. */
  function CalculateMonthlyFreeVideos(): (r: int)
    ensures r == 450
  {
    var dailyFreeCoins := MAX_ADS_PER_DAY * COINS_PER_AD;
    var dailyFreeVideos := dailyFreeCoins / COINS_PER_VIDEO;
    dailyFreeVideos * 30
  }

  /** For a non-negative balance the eligibility test is exactly "balance covers the cost". */
  lemma CanUnlockIffCoversCost(userCoins: int, isPremium: bool)
    requires userCoins >= 0
    ensures CanUnlockEpisode(userCoins, isPremium) == (userCoins >= GetUnlockCost(isPremium))
  {
  }

  /** Once the ad cap is reached it stays reached as the count grows. */
  lemma AdLimitMonotone(m: int, n: int)
    requires m <= n
    ensures HasExceededDailyAdLimit(m) ==> HasExceededDailyAdLimit(n)
  {
  }
}

=== FILE: coin_routes.dfy ===
/** The coin handlers: earning, the bounded history, and in-app coin purchases. */
module CoinRoutes {
  import opened Wrappers
  import opened Text
  import opened Schema
  import opened Storage
  import opened ReceiptVerification
  import opened Api

  datatype EarnReply = EarnReply(balance: int, earned: int)

  /** POST /api/coins/earn. A missing, zero or negative amount is refused; otherwise the amount
      is credited with the given reason (by default "rewarded_ad"). The user's existence is not
      checked, and the reported balance is computed rather than read back. */
  function EarnCoins(s: State, u: Id, amount: Option<int>, reason: Option<string>): (r: Result<Reply<EarnReply>, ApiError>)
    ensures r.Err? <==> amount.None? || amount.value <= 0
    ensures r.Err? ==> r.error == InvalidAmount
    ensures r.Ok? ==>
              var b := GetCoinBalance(s, u);
              var a := amount.value;
              && r.value.state.transactions
                 == s.transactions + [CoinTransaction(u, a, Earn, Some(reason.GetOr("rewarded_ad")), b, b + a)]
              && r.value.body == EarnReply(b + a, a)
              && (u in s.users ==> GetCoinBalance(r.value.state, u) == b + a)
              && (forall v :: v != u ==> GetCoinBalance(r.value.state, v) == GetCoinBalance(s, v))
              && SamePremium(s, r.value.state) && SameEntitlements(s, r.value.state)
  {
    if amount.None? || amount.value <= 0 then Err(InvalidAmount)
    else
      var current := GetCoinBalance(s, u);
      var newBalance := current + amount.value;
      Ok(Reply(Post(s, u, amount.value, Earn, reason.GetOr("rewarded_ad")), EarnReply(newBalance, amount.value)))
  }

  /** Earning for an account that does not exist still writes a ledger row and reports the
      credited balance, while the stored balance stays 0. */
  lemma EarnWithoutAccount(s: State, u: Id, a: int)
    requires u !in s.users && a > 0
    ensures var r := EarnCoins(s, u, Some(a), None);
            && r.Ok? && r.value.body.balance == a
            && |r.value.state.transactions| == |s.transactions| + 1
            && GetCoinBalance(r.value.state, u) == 0
  {
    var r := EarnCoins(s, u, Some(a), None);
    assert r.value.state.users == s.users;
  }

  /** The page size of GET /api/coins/history: 50 when the query gives none, and never more
      than 100. */
  function HistoryLimit(query: Option<nat>): (n: nat)
    ensures n <= 100
    ensures query.None? ==> n == 50
    ensures query.Some? ==> n == Min(query.value, 100)
  {
    var requested := query.GetOr(50);
    if requested <= 100 then requested else 100
  }

  /** GET /api/coins/history: the user's own ledger rows, newest first, at most 100 of them. */
  method CoinHistory(s: State, u: Id, query: Option<nat>) returns (r: seq<CoinTransaction>)
    ensures |r| <= 100
    ensures |r| == Min(HistoryLimit(query), |TxsOf(s.transactions, u)|)
    ensures forall k :: 0 <= k < |r| ==>
              && r[k].userId == u
              && r[k] == TxsOf(s.transactions, u)[|TxsOf(s.transactions, u)| - 1 - k]
  {
    r := GetCoinHistory(s, u, HistoryLimit(query));
    HistoryRowsAreNewestFirst(s, u, r);
  }

  /** The coin packages on sale: product id to coins credited, bonuses included. */
  const COIN_PACKAGES: map<string, int> := map[
    "com.premiumdramastream.coins.100" := 100,
    "com.premiumdramastream.coins.500" := 550,
    "com.premiumdramastream.coins.1200" := 1400,
    "com.premiumdramastream.coins.2500" := 3000]

  /** The coins a product id buys, or None for an unknown product. */
  function PackageCoins(productId: string): (coins: Option<int>)
    ensures productId == "com.premiumdramastream.coins.100" ==> coins == Some(100)
    ensures productId == "com.premiumdramastream.coins.500" ==> coins == Some(550)
    ensures productId == "com.premiumdramastream.coins.1200" ==> coins == Some(1400)
    ensures productId == "com.premiumdramastream.coins.2500" ==> coins == Some(3000)
    ensures coins.Some? <==> productId in COIN_PACKAGES.Keys
    ensures coins.Some? ==> coins.value >= 100
  {
    if productId in COIN_PACKAGES then Some(COIN_PACKAGES[productId]) else None
  }

  /** The store check of a coin purchase: Google Play with the purchase token (or, lacking
      one, the receipt), or the App Store with the receipt. */
  function PurchaseCheck(env: Env, productId: string, receiptData: string, purchaseToken: Option<string>, platform: Option<string>): (v: Option<Verification>)
    ensures v.Some? <==> platform == Some("android") || platform == Some("ios")
    ensures platform == Some("android") && Present(purchaseToken) ==>
              v == Some(VerifyGooglePlayReceipt(env.google, env.now, AndroidPackage(env), productId, purchaseToken.value))
    ensures platform == Some("android") && !Present(purchaseToken) ==>
              v == Some(VerifyGooglePlayReceipt(env.google, env.now, AndroidPackage(env), productId, receiptData))
    ensures platform == Some("ios") ==> v == Some(VerifyAppleReceipt(env.apple, env.now, receiptData))
  {
    var googleToken := if Present(purchaseToken) then purchaseToken.value else receiptData;
    VerifyOnPlatform(env, platform.GetOr(""), productId, googleToken, receiptData)
  }

  datatype PurchaseReply = PurchaseReply(coinsAdded: int, newBalance: int, platform: string, productId: string)

  /** POST /api/coins/verify-purchase. Refuses, in this order and without any change: missing
      product or receipt, unknown product, a platform other than android or ios, a receipt
      the store rejects. Otherwise credits exactly the package's coins. */
  function VerifyPurchase(s: State, u: Id, env: Env, productId: Option<string>, receiptData: Option<string>,
                          purchaseToken: Option<string>, platform: Option<string>): (r: Result<Reply<PurchaseReply>, ApiError>)
    ensures !Present(productId) || !Present(receiptData) ==> r == Err(MissingPurchaseFields)
    ensures Present(productId) && Present(receiptData) && PackageCoins(productId.value).None? ==>
              r == Err(UnknownProduct)
    ensures Present(productId) && Present(receiptData) && PackageCoins(productId.value).Some?
            && platform != Some("android") && platform != Some("ios") ==>
              r == Err(UnknownPlatform)
    ensures Present(productId) && Present(receiptData) && PackageCoins(productId.value).Some? ==>
              var v := PurchaseCheck(env, productId.value, receiptData.value, purchaseToken, platform);
              v.Some? && !v.value.valid ==> r == Err(VerificationFailed(v.value.error))
    ensures r.Ok? <==>
              && Present(productId) && Present(receiptData) && PackageCoins(productId.value).Some?
              && var v := PurchaseCheck(env, productId.value, receiptData.value, purchaseToken, platform);
              v.Some? && v.value.valid
    ensures r.Ok? ==>
              var coins := PackageCoins(productId.value).value;
              var b := GetCoinBalance(s, u);
              && r.value.state.transactions == s.transactions + [CoinTransaction(
                   u, coins, Purchase, Some("iap_purchase_" + productId.value + "_" + platform.value), b, b + coins)]
              && (u in s.users ==> GetCoinBalance(r.value.state, u) == b + coins)
              && (forall v :: v != u ==> GetCoinBalance(r.value.state, v) == GetCoinBalance(s, v))
              && r.value.body == PurchaseReply(coins, b + coins, platform.value, productId.value)
              && SamePremium(s, r.value.state) && SameEntitlements(s, r.value.state)
  {
    if !Present(productId) || !Present(receiptData) then Err(MissingPurchaseFields)
    else
      var p := productId.value;
      match PackageCoins(p)
      case None => Err(UnknownProduct)
      case Some(coins) =>
        match PurchaseCheck(env, p, receiptData.value, purchaseToken, platform)
        case None => Err(UnknownPlatform)
        case Some(v) =>
          if !v.valid then Err(VerificationFailed(v.error))
          else
            var current := GetCoinBalance(s, u);
            var t := Post(s, u, coins, Purchase, "iap_purchase_" + p + "_" + platform.value);
            Ok(Reply(t, PurchaseReply(coins, current + coins, platform.value, p)))
  }
}

=== FILE: ledger.dfy ===
/** The whole system as a transition system: every handler is one atomic step, and the
    invariants that survive any sequence of requests. The central one is the ledger chain:
    each user's rows start at 0, each row begins where the previous one ended, and the
    cached balance is where the last one ends. */
module Ledger {
  import opened Wrappers
  import opened Schema
  import opened Storage
  import opened Api
  import opened UnlockRoutes
  import opened CoinRoutes
  import opened AdRoutes
  import opened BillingRoutes

  /** The balance a run of rows ends at, having started at `start`. */
  function End(txs: seq<CoinTransaction>, start: int): int {
    if |txs| == 0 then start else txs[|txs| - 1].balanceAfter
  }

  /** The sum of the amounts of a run of rows. */
  function Sum(txs: seq<CoinTransaction>): int {
    if |txs| == 0 then 0 else Sum(txs[..|txs| - 1]) + txs[|txs| - 1].amount
  }

  /** Each row starts where the previous one (or `start`) ended, and ends `amount` later. */
  predicate Chained(txs: seq<CoinTransaction>, start: int) {
    if |txs| == 0 then true
    else
      var last := txs[|txs| - 1];
      && Chained(txs[..|txs| - 1], start)
      && last.balanceBefore == End(txs[..|txs| - 1], start)
      && last.balanceAfter == last.balanceBefore + last.amount
  }

  /** No row leaves a negative balance. */
  predicate NeverNegative(txs: seq<CoinTransaction>) {
    forall k :: 0 <= k < |txs| ==> txs[k].balanceAfter >= 0
  }

  /** A chained run ends at its start plus the sum of its amounts. */
  lemma {:induction false} ChainedEnd(txs: seq<CoinTransaction>, start: int)
    requires Chained(txs, start)
    ensures End(txs, start) == start + Sum(txs)
  {
    if |txs| > 0 {
      ChainedEnd(txs[..|txs| - 1], start);
    }
  }

  /** Appending a row that starts at the run's end and ends `amount` later keeps it chained. */
  lemma ChainedSnoc(txs: seq<CoinTransaction>, t: CoinTransaction, start: int)
    requires Chained(txs, start)
    requires t.balanceBefore == End(txs, start) && t.balanceAfter == t.balanceBefore + t.amount
    ensures Chained(txs + [t], start) && End(txs + [t], start) == t.balanceAfter
  {
    assert (txs + [t])[..|txs|] == txs;
  }

  /** For every registered user: the ledger is chained from 0, ends at the cached balance, and
      never dips below zero. Rows of unregistered ids are not constrained. */
  ghost predicate LedgerConsistent(s: State) {
    forall u :: u in s.users ==>
      && Chained(TxsOf(s.transactions, u), 0)
      && End(TxsOf(s.transactions, u), 0) == GetCoinBalance(s, u)
      && NeverNegative(TxsOf(s.transactions, u))
  }

  /** The invariant every request preserves. */
  ghost predicate Invariant(s: State) {
    && LedgerConsistent(s)
    && OneSubscriptionPerUser(s.subscriptions)
    && UniqueFavorites(s.favorites)
    && UniqueWatchRows(s.watchHistory)
  }

  /** Under the ledger invariant nobody's cached balance is negative. */
  lemma BalanceNonNegative(s: State, u: Id)
    requires LedgerConsistent(s)
    ensures GetCoinBalance(s, u) >= 0
  {
    if u in s.users {
      var mine := TxsOf(s.transactions, u);
      if |mine| > 0 {
        assert mine[|mine| - 1].balanceAfter >= 0;
      }
    }
  }

  /** One posting row that starts at the owner's balance, ends `amount` later at a
      non-negative value, and becomes the owner's balance keeps the ledger consistent. */
  lemma PostingPreservesLedger(s: State, t: State, row: CoinTransaction)
    requires LedgerConsistent(s)
    requires t.users.Keys == s.users.Keys
    requires t.transactions == s.transactions + [row]
    requires row.balanceBefore == GetCoinBalance(s, row.userId)
    requires row.balanceAfter == row.balanceBefore + row.amount && row.balanceAfter >= 0
    requires row.userId in s.users ==> GetCoinBalance(t, row.userId) == row.balanceAfter
    requires forall v :: v != row.userId ==> GetCoinBalance(t, v) == GetCoinBalance(s, v)
    ensures LedgerConsistent(t)
  {
    forall v | v in t.users
      ensures && Chained(TxsOf(t.transactions, v), 0)
              && End(TxsOf(t.transactions, v), 0) == GetCoinBalance(t, v)
              && NeverNegative(TxsOf(t.transactions, v))
    {
      TxsOfAppend(s.transactions, row, v);
      if v == row.userId {
        ChainedSnoc(TxsOf(s.transactions, v), row, 0);
      } else {
        assert TxsOf(t.transactions, v) == TxsOf(s.transactions, v) + [];
        assert TxsOf(s.transactions, v) + [] == TxsOf(s.transactions, v);
      }
    }
  }

  /** A step that writes no ledger row and moves no balance keeps the ledger consistent. */
  lemma QuietStepPreservesLedger(s: State, t: State)
    requires LedgerConsistent(s)
    requires t.users.Keys == s.users.Keys
    requires t.transactions == s.transactions
    requires forall v :: GetCoinBalance(t, v) == GetCoinBalance(s, v)
    ensures LedgerConsistent(t)
  {
  }

  /** The requests a client can make against the coin economy and entitlement store. */
  datatype Request =
    | UnlockReq(u: Id, e: Id, requestedMethod: Option<string>)
    | UnlockWithCoinsReq(u: Id, e: Id)
    | EarnReq(u: Id, amount: Option<int>, reason: Option<string>)
    | WatchAdReq(u: Id, day: Day)
    | VerifyPurchaseReq(u: Id, env: Env, productId: Option<string>, receiptData: Option<string>,
                        purchaseToken: Option<string>, platform: Option<string>)
    | BillingVerifyReq(u: Id, env: Env, cal: Calendar, platform: Option<string>, productId: Option<string>,
                       purchaseToken: Option<string>, receiptData: Option<string>)
    | BillingCancelReq(u: Id)
    | ToggleFavoriteReq(u: Id, seriesId: Id)
    | SaveProgressReq(data: WatchInsert, now: Timestamp)

  /** The state after a result: the new state of a success, the old one after a refusal. */
  function After<T>(s: State, r: Result<Reply<T>, ApiError>): State {
    if r.Ok? then r.value.state else s
  }

  /** One request as one atomic step. */
  function Apply(s: State, req: Request): State {
    match req
    case UnlockReq(u, e, m) => After(s, UnlockGeneric(s, u, e, m))
    case UnlockWithCoinsReq(u, e) => After(s, UnlockWithCoins(s, u, e))
    case EarnReq(u, a, reason) => After(s, EarnCoins(s, u, a, reason))
    case WatchAdReq(u, day) => After(s, WatchAd(s, u, day))
    case VerifyPurchaseReq(u, env, p, rd, tok, pf) => After(s, VerifyPurchase(s, u, env, p, rd, tok, pf))
    case BillingVerifyReq(u, env, cal, pf, p, tok, rd) => After(s, BillingVerify(s, u, env, cal, pf, p, tok, rd))
    case BillingCancelReq(u) => After(s, BillingCancel(s, u))
    case ToggleFavoriteReq(u, x) => ToggleFavorite(s, u, x).0
    case SaveProgressReq(data, now) => SaveWatchProgress(s, data, now).0
  }

  /** A successful paid step keeps the invariant: its single new row is a posting row for
      the requesting user that leaves a non-negative balance. */
  lemma PaidStepPreservesInvariant(s: State, req: Request)
    requires Invariant(s)
    requires req.UnlockReq? || req.UnlockWithCoinsReq? || req.EarnReq? || req.WatchAdReq? || req.VerifyPurchaseReq?
    ensures Invariant(Apply(s, req))
    ensures Apply(s, req).users.Keys == s.users.Keys
    ensures s.grants <= Apply(s, req).grants
  {
    var t := Apply(s, req);
    BalanceNonNegative(s, req.u);
    if t != s && |t.transactions| == |s.transactions| + 1 {
      PostingPreservesLedger(s, t, t.transactions[|s.transactions|]);
    }
  }

  /** Every request keeps the invariant, keeps the set of users, and only ever adds grants. */
  lemma StepPreservesInvariant(s: State, req: Request)
    requires Invariant(s)
    ensures Invariant(Apply(s, req))
    ensures Apply(s, req).users.Keys == s.users.Keys
    ensures s.grants <= Apply(s, req).grants
  {
    match req
    case BillingVerifyReq(u, env, cal, pf, p, tok, rd) =>
      if BillingVerify(s, u, env, cal, pf, p, tok, rd).Ok? {
        QuietStepPreservesLedger(s, Apply(s, req));
      }
    case BillingCancelReq(u) => CancelStepPreservesInvariant(s, u);
    case ToggleFavoriteReq(u, x) =>
    case SaveProgressReq(data, now) =>
    case _ => PaidStepPreservesInvariant(s, req);
  }

  /** Cancelling touches only the subscriptions table and keeps one row per user. */
  lemma CancelStepPreservesInvariant(s: State, u: Id)
    requires Invariant(s)
    ensures Invariant(Apply(s, BillingCancelReq(u)))
    ensures Apply(s, BillingCancelReq(u)).users.Keys == s.users.Keys
    ensures s.grants <= Apply(s, BillingCancelReq(u)).grants
  {
    var r := BillingCancel(s, u);
    assert Apply(s, BillingCancelReq(u)) == After(s, r);
    if r.Ok? {
      QuietStepPreservesLedger(s, r.value.state);
    }
  }

  /** A sequence of requests applied in order. */
  function Run(s: State, reqs: seq<Request>): State
    decreases |reqs|
  {
    if |reqs| == 0 then s else Apply(Run(s, reqs[..|reqs| - 1]), reqs[|reqs| - 1])
  }

  /** The invariant holds after any sequence of requests, users are never added or removed,
      and the grant table only grows, so an unlocked episode stays unlocked. */
  lemma {:induction false} RunPreservesInvariant(s: State, reqs: seq<Request>)
    requires Invariant(s)
    ensures Invariant(Run(s, reqs))
    ensures Run(s, reqs).users.Keys == s.users.Keys
    ensures s.grants <= Run(s, reqs).grants
    decreases |reqs|
  {
    if |reqs| > 0 {
      RunPreservesInvariant(s, reqs[..|reqs| - 1]);
      StepPreservesInvariant(Run(s, reqs[..|reqs| - 1]), reqs[|reqs| - 1]);
    }
  }

  /** No request ever clears the premium flag: neither cancellation nor expiry nor anything
      else. */
  lemma PremiumNeverCleared(s: State, req: Request, v: Id)
    requires IsPremiumUser(s, v)
    ensures IsPremiumUser(Apply(s, req), v)
  {
    match req
    case BillingVerifyReq(u, env, cal, pf, p, tok, rd) =>
      var r := BillingVerify(s, u, env, cal, pf, p, tok, rd);
      if r.Ok? && v != u {
        assert r.value.state.users[v] == s.users[v];
      }
    case _ =>
  }

  /** Once premium, always premium, whatever requests follow. */
  lemma {:induction false} PremiumIsForever(s: State, reqs: seq<Request>, v: Id)
    requires IsPremiumUser(s, v)
    ensures IsPremiumUser(Run(s, reqs), v)
    decreases |reqs|
  {
    if |reqs| > 0 {
      PremiumIsForever(s, reqs[..|reqs| - 1], v);
      PremiumNeverCleared(Run(s, reqs[..|reqs| - 1]), reqs[|reqs| - 1], v);
    }
  }

  /** A store in which nobody has a ledger row and every stored balance is 0 (as for freshly
      registered accounts) satisfies the invariant. */
  lemma FreshStoreIsConsistent(s: State)
    requires s.transactions == []
    requires forall u :: u in s.users ==> s.users[u].coinBalance.GetOr(0) == 0
    requires OneSubscriptionPerUser(s.subscriptions)
    requires UniqueFavorites(s.favorites) && UniqueWatchRows(s.watchHistory)
    ensures Invariant(s)
  {
  }

  /** From a consistent store, after any sequence of requests, every registered user's
      balance is the sum of the amounts on their ledger rows and is never negative, and every
      episode unlocked before is still unlocked. */
  lemma BalanceIsSumOfAmounts(s: State, reqs: seq<Request>, u: Id, e: Id)
    requires Invariant(s)
    requires u in s.users
    ensures var t := Run(s, reqs);
            && GetCoinBalance(t, u) == Sum(TxsOf(t.transactions, u))
            && GetCoinBalance(t, u) >= 0
            && (IsEpisodeUnlocked(s, u, e) ==> IsEpisodeUnlocked(t, u, e))
  {
    var t := Run(s, reqs);
    RunPreservesInvariant(s, reqs);
    ChainedEnd(TxsOf(t.transactions, u), 0);
    BalanceNonNegative(t, u);
    if IsEpisodeUnlocked(s, u, e) {
      UnlockedStaysUnlocked(s, t, u, e);
    }
  }
}

=== FILE: receipt_verification.dfy ===
/** Classification of store receipts into `{valid, error, data}`. Environment variables,
    the clock and each network round trip are inputs: the model decides only what the
    verifier answers for each combination of them. No branch raises: every failure,
    including a thrown exception, becomes an invalid result. */
module ReceiptVerification {
  import opened Wrappers
  import opened Text

  /** What a network round trip produced: an exception (with its text), a non-2xx response,
      or a 2xx response whose parsed body is given. */
  datatype Http<+B> = Threw(message: string) | NotOk | OkBody(body: B)

  /** The parts of a Google Play purchase response the verifier reads. */
  datatype GoogleBody = GoogleBody(purchaseState: Option<int>, orderId: string)

  /** The parts of an App Store `verifyReceipt` response the verifier reads. */
  datatype AppleBody = AppleBody(status: Option<int>, latestReceipt: string)

  /** The outcome of `JSON.parse` on the Google credentials variable. */
  datatype CredentialsJson = Unparsable | Parsed(clientEmail: Option<string>, privateKey: Option<string>)

  /** Google-side inputs: the credentials variable, how it parses, and the API response. */
  datatype GoogleEnv = GoogleEnv(credentials: Option<string>, parsed: CredentialsJson, response: Http<GoogleBody>)

  /** Apple-side inputs: `NODE_ENV`, the bundle id and shared secret variables, and the API response. */
  datatype AppleEnv = AppleEnv(nodeEnv: Option<string>, bundleId: Option<string>, sharedSecret: Option<string>, response: Http<AppleBody>)

  /** Receipt data handed back with a valid result. */
  datatype ReceiptData =
    | GooglePurchase(packageName: string, productId: string, purchaseToken: string,
                     purchaseState: int, acknowledgementState: int, orderId: string)
    | GoogleReported(google: GoogleBody)
    | AppleReceipt(bundleId: string, inAppProductId: string, transactionId: string,
                   latestReceipt: string, status: int, environment: string)
    | AppleReported(apple: AppleBody)

  datatype Verification = Verification(valid: bool, error: Option<string>, data: Option<ReceiptData>)

  function Valid(data: ReceiptData): Verification {
    Verification(true, None, Some(data))
  }

  function Invalid(error: string): Verification {
    Verification(false, Some(error), None)
  }

  /** A result is well formed when valid results carry data and invalid ones an error. */
  predicate WellFormed(v: Verification) {
    (v.valid ==> v.data.Some? && v.error.None?) && (!v.valid ==> v.error.Some? && v.data.None?)
  }

  const SIMULATED_PREFIX := "simulated_"

  /** The OAuth access token for the Google API. With no credentials, with unparsable ones,
      with a missing client e-mail or key, and also with complete ones (the signing step is
      not implemented), the answer is no token. */
  function GetGoogleAccessToken(credentials: Option<string>, parsed: CredentialsJson): (token: Option<string>)
    ensures token.None?
  {
    if !Present(credentials) then None
    else match parsed
      case Unparsable => None
      case Parsed(email, key) =>
        // Incomplete credentials give no token; complete ones give none either, because the
        // signed assertion is built but never exchanged for a token.
        if !Present(email) || !Present(key) then None
        else None
  }

  /** Classification of a Google Play API round trip: only a 2xx body with purchase state 0
      is valid. */
  function ClassifyGoogleResponse(response: Http<GoogleBody>): (v: Verification)
    ensures WellFormed(v)
    ensures v.valid <==> response.OkBody? && response.body.purchaseState == Some(0)
    ensures response.Threw? ==> v.error == Some(response.message)
    ensures response.NotOk? ==> v.error == Some("Failed to verify receipt with Google Play")
    ensures response.OkBody? && !v.valid ==> v.error == Some("Purchase has been canceled")
  {
    match response
    case Threw(message) => Invalid(message)
    case NotOk => Invalid("Failed to verify receipt with Google Play")
    case OkBody(body) =>
      if body.purchaseState == Some(0) then Valid(GoogleReported(body))
      else Invalid("Purchase has been canceled")
  }

  /** Verification of a Google Play purchase token. Without credentials the purchase is
      accepted as simulated, echoing package, product and token; with credentials the missing
      access token makes every verification fail before any request is sent. */
  function VerifyGooglePlayReceipt(env: GoogleEnv, now: int, packageName: string, productId: string, receiptToken: string): (v: Verification)
    ensures WellFormed(v)
    ensures !Present(env.credentials) ==>
              && v.valid
              && v.data.value.GooglePurchase?
              && v.data.value.packageName == packageName
              && v.data.value.productId == productId
              && v.data.value.purchaseToken == receiptToken
              && v.data.value.purchaseState == 0
              && StartsWith(v.data.value.orderId, SIMULATED_PREFIX)
    ensures Present(env.credentials) ==> v == Invalid("Failed to get Google access token")
  {
    if !Present(env.credentials) then
      Valid(GooglePurchase(packageName, productId, receiptToken, 0, 1, SIMULATED_PREFIX + IntToString(now)))
    else
      match GetGoogleAccessToken(env.credentials, env.parsed)
      case None => Invalid("Failed to get Google access token")
      case Some(_) => ClassifyGoogleResponse(env.response)
  }

  /** A simulated Google acceptance is only ever given when credentials are absent. */
  lemma GoogleValidMeansSimulated(env: GoogleEnv, now: int, packageName: string, productId: string, receiptToken: string)
    ensures VerifyGooglePlayReceipt(env, now, packageName, productId, receiptToken).valid <==> !Present(env.credentials)
  {
  }

  /** `production` when `NODE_ENV` says so, `sandbox` otherwise. */
  function AppleEnvironment(nodeEnv: Option<string>): (e: string)
    ensures e == "production" <==> nodeEnv == Some("production")
    ensures e == "production" || e == "sandbox"
  {
    if nodeEnv == Some("production") then "production" else "sandbox"
  }

  /** The endpoint a real Apple verification posts to. */
  function AppleVerifyUrl(nodeEnv: Option<string>): (url: string)
    ensures AppleEnvironment(nodeEnv) == "production" ==> url == "https://buy.itunes.apple.com/verifyReceipt"
    ensures AppleEnvironment(nodeEnv) == "sandbox" ==> url == "https://sandbox.itunes.apple.com/verifyReceipt"
  {
    if AppleEnvironment(nodeEnv) == "production" then "https://buy.itunes.apple.com/verifyReceipt"
    else "https://sandbox.itunes.apple.com/verifyReceipt"
  }

  /** How a status field prints inside a template literal. */
  function StatusText(status: Option<int>): string {
    match status
    case Some(n) => IntToString(n)
    case None => "undefined"
  }

  /** Classification of an App Store round trip: only a 2xx body with status 0 is valid;
      another status is reported in the error text. */
  function ClassifyAppleResponse(response: Http<AppleBody>): (v: Verification)
    ensures WellFormed(v)
    ensures v.valid <==> response.OkBody? && response.body.status == Some(0)
    ensures response.Threw? ==> v.error == Some(response.message)
    ensures response.NotOk? ==> v.error == Some("Failed to verify receipt with Apple")
    ensures response.OkBody? && !v.valid ==>
              v.error == Some("Apple verification failed with status " + StatusText(response.body.status))
  {
    match response
    case Threw(message) => Invalid(message)
    case NotOk => Invalid("Failed to verify receipt with Apple")
    case OkBody(body) =>
      if body.status == Some(0) then Valid(AppleReported(body))
      else Invalid("Apple verification failed with status " + StatusText(body.status))
  }

  /** Verification of an App Store receipt. Without a shared secret the receipt is accepted
      as simulated, with status 0 and the input as latest receipt; with one, the App Store's
      answer decides. */
  function VerifyAppleReceipt(env: AppleEnv, now: int, receiptData: string): (v: Verification)
    ensures WellFormed(v)
    ensures !Present(env.sharedSecret) ==>
              && v.valid
              && v.data.value.AppleReceipt?
              && v.data.value.status == 0
              && v.data.value.latestReceipt == receiptData
              && v.data.value.environment == AppleEnvironment(env.nodeEnv)
              && v.data.value.bundleId == (if Present(env.bundleId) then env.bundleId.value else "com.premiumdramastream")
              && StartsWith(v.data.value.transactionId, SIMULATED_PREFIX)
    ensures Present(env.sharedSecret) ==> v == ClassifyAppleResponse(env.response)
  {
    var environment := AppleEnvironment(env.nodeEnv);
    var bundleId := if Present(env.bundleId) then env.bundleId.value else "com.premiumdramastream";
    if !Present(env.sharedSecret) then
      Valid(AppleReceipt(bundleId, "com.premiumdramastream.coins.100", SIMULATED_PREFIX + IntToString(now),
                         receiptData, 0, environment))
    else
      ClassifyAppleResponse(env.response)
  }

  /** With a shared secret configured, acceptance requires the App Store itself to answer
      status 0. */
  lemma AppleValidNeedsStoreApproval(env: AppleEnv, now: int, receiptData: string)
    requires Present(env.sharedSecret)
    ensures VerifyAppleReceipt(env, now, receiptData).valid ==>
              env.response.OkBody? && env.response.body.status == Some(0)
  {
  }
}

=== FILE: scenarios.dfy ===
/** Concrete runs of the handlers on small stores: the behaviour a client sees, step by step. */
module Scenarios {
  import opened Wrappers
  import opened Schema
  import opened Storage
  import opened ReceiptVerification
  import opened Api
  import opened UnlockRoutes
  import opened CoinRoutes
  import opened AdRoutes
  import opened BillingRoutes
  import opened Ledger

  const ALICE := "alice"

  /** A store holding one freshly registered account and nothing else. */
  function Fresh(): (s: State)
    ensures ALICE in s.users && !s.users[ALICE].isPremium && GetCoinBalance(s, ALICE) == 0
    ensures Invariant(s)
  {
    var s := State(map[ALICE := InsertUserRow(UserInsert(None, None, None))], [], [], [], map[], [], []);
    FreshStoreIsConsistent(s);
    s
  }

  /** Store answers that accept everything as simulated: no Google credentials, no Apple secret. */
  function SimulatedStores(now: Timestamp): Env {
    Env(now, None, GoogleEnv(None, Unparsable, NotOk), AppleEnv(None, None, None, NotOk))
  }

  /** Earning five coins and unlocking an episode leaves three; asking again for the same
      episode is refused and costs nothing. */
  lemma EarnThenUnlock()
    ensures var s1 := EarnCoins(Fresh(), ALICE, Some(5), None);
            && s1.Ok? && GetCoinBalance(s1.value.state, ALICE) == 5
            && var s2 := UnlockWithCoins(s1.value.state, ALICE, "ep1");
            && s2.Ok? && GetCoinBalance(s2.value.state, ALICE) == 3
            && IsEpisodeUnlocked(s2.value.state, ALICE, "ep1")
            && UnlockWithCoins(s2.value.state, ALICE, "ep1") == Err(AlreadyUnlocked)
  {
    var s1 := EarnCoins(Fresh(), ALICE, Some(5), None).value.state;
    assert !IsEpisodeUnlocked(s1, ALICE, "ep1");
    var s2 := UnlockWithCoins(s1, ALICE, "ep1").value.state;
    assert s2.grants[|s1.grants|] == UnlockedEpisode(ALICE, "ep1", Coins);
    ExplicitUnlockChargesOnce(s1, ALICE, "ep1");
  }

  /** A new account cannot pay for an episode on either endpoint; only the explicit one says
      how many coins are missing. */
  lemma NewAccountCannotPay(e: Id)
    ensures UnlockWithCoins(Fresh(), ALICE, e) == Err(InsufficientCoins(2, 0, Some(2)))
    ensures UnlockGeneric(Fresh(), ALICE, e, None) == Err(InsufficientCoins(2, 0, None))
  {
  }

  /** The ninth ad of a day pays and the tenth, once counted, closes the day:
      the next request is refused with limit 10 and count 10. */
  lemma TenthAdClosesTheDay(day: Day)
    ensures var s := Fresh().(adViews := map[(ALICE, day) := 9]);
            var r := WatchAd(s, ALICE, day);
            && r.Ok? && r.value.body.adsWatchedToday == 10 && GetCoinBalance(r.value.state, ALICE) == 3
            && WatchAd(r.value.state, ALICE, day) == Err(DailyLimitExceeded(10, 10))
  {
    var s := Fresh().(adViews := map[(ALICE, day) := 9]);
    assert AdsWatched(s, ALICE, day) == 9;
  }

  /** A purchase whose Google check cannot get an access token is refused with that reason
      and credits nothing. */
  lemma FailedPurchaseChangesNothing(now: Timestamp, credentials: string)
    requires credentials != ""
    ensures var env := Env(now, None, GoogleEnv(Some(credentials), Unparsable, NotOk), AppleEnv(None, None, None, NotOk));
            VerifyPurchase(Fresh(), ALICE, env, Some("com.premiumdramastream.coins.500"), Some("receipt"), None, Some("android"))
            == Err(VerificationFailed(Some("Failed to get Google access token")))
  {
  }

  /** A simulated coin purchase of the 500 pack credits 550 coins. */
  lemma SimulatedPurchaseCredits(now: Timestamp)
    ensures var r := VerifyPurchase(Fresh(), ALICE, SimulatedStores(now), Some("com.premiumdramastream.coins.500"),
                                    Some("receipt"), None, Some("ios"));
            r.Ok? && GetCoinBalance(r.value.state, ALICE) == 550 && r.value.body.coinsAdded == 550
  {
  }

  /** Premium outlives cancellation: after subscribing and cancelling, the status shows no
      subscription but the stored flag is still set, and episodes still unlock for free. */
  lemma PremiumOutlivesCancel(now: Timestamp, cal: Calendar, e: Id)
    ensures var s1 := BillingVerify(Fresh(), ALICE, SimulatedStores(now), cal, Some("android"),
                                    Some("com.premiumdramastream.premium.weekly"), Some("token"), None);
            && s1.Ok?
            && var s2 := BillingCancel(s1.value.state, ALICE);
            && s2.Ok?
            && !BillingStatus(s2.value.state, ALICE, now).subscribed
            && BillingStatus(s2.value.state, ALICE, now).isPremium
            && var s3 := UnlockGeneric(s2.value.state, ALICE, e, Some("coins"));
            && s3.Ok? && s3.value.state.transactions == []
            && s3.value.body.grant.unlockMethod == Premium
  {
    var s1 := BillingVerify(Fresh(), ALICE, SimulatedStores(now), cal, Some("android"),
                            Some("com.premiumdramastream.premium.weekly"), Some("token"), None).value.state;
    assert OneSubscriptionPerUser(s1.subscriptions);
  }

  /** Expiry is only cosmetic: an active row past its expiry is shown as expired, yet the
      status still says subscribed. */
  lemma ExpiredButSubscribed()
    ensures var sub := Subscription(ALICE, Weekly, None, None, Active, 100, None, 0, None);
            var st := BillingStatus(Fresh().(subscriptions := [sub]), ALICE, 200);
            && st.subscribed
            && st.subscription == Some(sub.(status := Expired))
  {
    var sub := Subscription(ALICE, Weekly, None, None, Active, 100, None, 0, None);
    assert Fresh().(subscriptions := [sub]).subscriptions[0] == sub;
  }
}

=== FILE: schema.dfy ===
/** Row shapes of the tables the coin economy touches, with their column defaults and
    the one unique constraint among them. Identifiers are opaque strings; timestamps are
    integer milliseconds. Columns the core never reads (email, display name, avatar,
    preferences, creation times) are not represented. */
module Schema {
  import opened Wrappers

  type Id = string
  type Timestamp = int

  /** A user row. `isPremium` is only ever read by truthiness, so a NULL reads as false. */
  datatype User = User(isPremium: bool, premiumExpiresAt: Option<Timestamp>, coinBalance: Option<int>)

  /** The values an insert into `users` supplies; `None` leaves the column to its default. */
  datatype UserInsert = UserInsert(isPremium: Option<bool>, premiumExpiresAt: Option<Timestamp>, coinBalance: Option<int>)

  /** The row an insert into `users` stores: supplied values, else the column defaults
      (not premium, no expiry, balance 0). */
  function InsertUserRow(values: UserInsert): (u: User)
    ensures values.isPremium.None? ==> !u.isPremium
    ensures values.isPremium.Some? ==> u.isPremium == values.isPremium.value
    ensures u.premiumExpiresAt == values.premiumExpiresAt
    ensures values.coinBalance.None? ==> u.coinBalance == Some(0)
    ensures values.coinBalance.Some? ==> u.coinBalance == values.coinBalance
  {
    User(values.isPremium.GetOr(false), values.premiumExpiresAt, Some(values.coinBalance.GetOr(0)))
  }

  /** Sign-up and guest creation supply none of the economy columns. */
  const NoEconomyValues := UserInsert(None, None, None)

  /** A freshly created account starts with zero coins, no premium and no expiry. */
  lemma NewAccountDefaults()
    ensures InsertUserRow(NoEconomyValues) == User(false, None, Some(0))
  {
  }

  /** The `type` column of a coin transaction: the four values the handlers write. */
  datatype TxType = EpisodeUnlock | Earn | Purchase | AdReward

  /** A ledger row. Amount, both balances and the type are NOT NULL integers / text;
      only the reason may be NULL. */
  datatype CoinTransaction = CoinTransaction(
    userId: Id,
    amount: int,
    txType: TxType,
    reason: Option<string>,
    balanceBefore: int,
    balanceAfter: int)

  /** How an episode is (or may be) unlocked: the vocabulary of both `unlock_method` on
      grants and `unlock_type` on episodes. */
  datatype UnlockKind = Free | Ad | Coins | Premium

  /** A grant row. There is no unique constraint on (userId, episodeId). */
  datatype UnlockedEpisode = UnlockedEpisode(userId: Id, episodeId: Id, unlockMethod: UnlockKind)

  /** The row an insert into `unlocked_episodes` stores; the method defaults to `free`. */
  function InsertGrantRow(userId: Id, episodeId: Id, kind: Option<UnlockKind>): (g: UnlockedEpisode)
    ensures g.userId == userId && g.episodeId == episodeId
    ensures kind.None? ==> g.unlockMethod == Free
    ensures kind.Some? ==> g.unlockMethod == kind.value
  {
    UnlockedEpisode(userId, episodeId, kind.GetOr(Free))
  }

  datatype Plan = Weekly | Monthly | Yearly

  /** The statuses a subscription row can carry (the server writes `active` and
      `canceled`; `expired` only ever appears in a status response). */
  datatype SubStatus = Active | Pending | Canceled | Expired

  /** A subscription row: plan, status and expiry are NOT NULL; token, product, renewal
      and cancellation times may be NULL. */
  datatype Subscription = Subscription(
    userId: Id,
    plan: Plan,
    purchaseToken: Option<string>,
    googleProductId: Option<string>,
    status: SubStatus,
    expiresAt: Timestamp,
    renewsAt: Option<Timestamp>,
    purchasedAt: Timestamp,
    cancelledAt: Option<Timestamp>)

  /** The values an upsert into `subscriptions` supplies. */
  datatype SubscriptionInsert = SubscriptionInsert(
    userId: Id,
    plan: Plan,
    purchaseToken: Option<string>,
    googleProductId: Option<string>,
    status: SubStatus,
    expiresAt: Timestamp,
    renewsAt: Option<Timestamp>)

  /** The row an insert stores: the supplied values, purchase time defaulting to `now`,
      and no cancellation time. */
  function InsertSubscriptionRow(data: SubscriptionInsert, now: Timestamp): (sub: Subscription)
    ensures HasValues(sub, data)
    ensures sub.purchasedAt == now && sub.cancelledAt.None?
  {
    Subscription(data.userId, data.plan, data.purchaseToken, data.googleProductId,
                 data.status, data.expiresAt, data.renewsAt, now, None)
  }

  /** Every column `data` supplies holds its supplied value in `sub`. */
  predicate HasValues(sub: Subscription, data: SubscriptionInsert) {
    && sub.userId == data.userId
    && sub.plan == data.plan
    && sub.purchaseToken == data.purchaseToken
    && sub.googleProductId == data.googleProductId
    && sub.status == data.status
    && sub.expiresAt == data.expiresAt
    && sub.renewsAt == data.renewsAt
  }

  /** An update `set(data)` of an existing row: supplied columns are overwritten, the
      purchase and cancellation times keep their stored values. */
  function UpdateSubscriptionRow(old_: Subscription, data: SubscriptionInsert): (sub: Subscription)
    ensures HasValues(sub, data)
    ensures sub.purchasedAt == old_.purchasedAt && sub.cancelledAt == old_.cancelledAt
  {
    old_.(userId := data.userId, plan := data.plan, purchaseToken := data.purchaseToken,
          googleProductId := data.googleProductId, status := data.status,
          expiresAt := data.expiresAt, renewsAt := data.renewsAt)
  }

  /** A favourites row; (userId, seriesId) carries no unique constraint. */
  datatype Favorite = Favorite(userId: Id, seriesId: Id)

  /** Watch progress is a stored floating-point value the core never inspects. */
  datatype Progress = Progress(value: real)

  /** A watch-history row. */
  datatype WatchRow = WatchRow(userId: Id, seriesId: Id, episodeId: Id, progress: Progress, lastWatchedAt: Timestamp)

  /** The values a save of watch progress supplies. The request body may omit the progress
      and the time (`None`); it may also supply its own time. */
  datatype WatchInsert = WatchInsert(userId: Id, seriesId: Id, episodeId: Id, progress: Option<Progress>,
                                     lastWatchedAt: Option<Timestamp>)

  /** The row an insert into watch_history stores: the supplied columns, progress defaulting
      to 0 and the time to the moment of the insert. */
  function InsertWatchRow(data: WatchInsert, now: Timestamp): (w: WatchRow)
    ensures w.userId == data.userId && w.seriesId == data.seriesId && w.episodeId == data.episodeId
    ensures data.progress.Some? ==> w.progress == data.progress.value
    ensures data.progress.None? ==> w.progress == Progress(0.0)
    ensures data.lastWatchedAt.Some? ==> w.lastWatchedAt == data.lastWatchedAt.value
    ensures data.lastWatchedAt.None? ==> w.lastWatchedAt == now
  {
    WatchRow(data.userId, data.seriesId, data.episodeId, data.progress.GetOr(Progress(0.0)), data.lastWatchedAt.GetOr(now))
  }

  /** A push-token row; `token` is the one UNIQUE column among the tables modelled here. */
  datatype PushToken = PushToken(userId: Id, token: string, platform: string, active: bool)

  /** An episode row as the seeder writes it. */
  datatype EpisodeRow = EpisodeRow(
    seriesId: Id,
    episodeNumber: int,
    title: string,
    thumbnailUrl: string,
    videoUrl: string,
    duration: int,
    isLocked: bool,
    unlockType: UnlockKind)

  /** What the database reports for an insert. */
  datatype DbError = UniqueViolation(column: string)

  /** An insert into `favorites`: without a unique constraint it always succeeds, even for
      a pair already present. */
  function InsertFavorite(rows: seq<Favorite>, row: Favorite): (r: Result<seq<Favorite>, DbError>)
    ensures r.Ok?
    ensures |r.value| == |rows| + 1 && r.value[..|rows|] == rows && r.value[|rows|] == row
    ensures multiset(r.value) == multiset(rows) + multiset{row}
  {
    Ok(rows + [row])
  }

  /** No favourites row appears twice. */
  predicate UniqueFavorites(rows: seq<Favorite>) {
    forall i, j :: 0 <= i < j < |rows| ==> rows[i] != rows[j]
  }

  /** Into a table without repeated rows, an insert keeps rows unique exactly when the row
      is new: the table itself does nothing to stop a duplicate. */
  lemma InsertFavoriteKeepsUniqueIffNew(rows: seq<Favorite>, row: Favorite)
    requires UniqueFavorites(rows)
    ensures UniqueFavorites(InsertFavorite(rows, row).value) <==> row !in rows
  {
    var r := InsertFavorite(rows, row).value;
    if row in rows {
      var i :| 0 <= i < |rows| && rows[i] == row;
      assert r[i] == r[|rows|];
    } else {
      forall i, j | 0 <= i < j < |r|
        ensures r[i] != r[j]
      {
        if j < |rows| {
          assert r[i] == rows[i] && r[j] == rows[j];
        } else {
          assert r[i] == rows[i];
        }
      }
    }
  }

  /** Inserting the same favourite twice, with no lookup in between, always leaves a
      duplicated row, whatever the table held before. */
  lemma UnguardedInsertDuplicates(rows: seq<Favorite>, row: Favorite)
    ensures var twice := InsertFavorite(InsertFavorite(rows, row).value, row).value;
            && !UniqueFavorites(twice)
            && multiset(twice)[row] == multiset(rows)[row] + 2
  {
    var once := InsertFavorite(rows, row).value;
    var twice := InsertFavorite(once, row).value;
    assert twice[|rows|] == row && twice[|rows| + 1] == row;
  }

  /** An insert into `push_tokens`: refused exactly when another row already holds the token. */
  function InsertPushToken(rows: seq<PushToken>, row: PushToken): (r: Result<seq<PushToken>, DbError>)
    ensures r.Err? <==> exists i :: 0 <= i < |rows| && rows[i].token == row.token
    ensures r.Ok? ==> r.value == rows + [row]
  {
    if exists i :: 0 <= i < |rows| && rows[i].token == row.token then Err(UniqueViolation("token"))
    else Ok(rows + [row])
  }

  /** No two push-token rows share a token. */
  predicate TokensUnique(rows: seq<PushToken>) {
    forall i, j :: 0 <= i < j < |rows| ==> rows[i].token != rows[j].token
  }

  /** The unique constraint keeps push tokens unique across any insert. */
  lemma PushTokenInsertKeepsUnique(rows: seq<PushToken>, row: PushToken)
    requires TokensUnique(rows)
    ensures InsertPushToken(rows, row).Ok? ==> TokensUnique(InsertPushToken(rows, row).value)
  {
  }

  /** The same (user, series) pair inserted twice yields two favourites rows, whereas the same
      token inserted twice is refused the second time. */
  lemma DuplicatesOnlyWithoutConstraint(f: Favorite, t: PushToken)
    ensures InsertFavorite(InsertFavorite([], f).value, f) == Ok([f, f])
    ensures InsertPushToken(InsertPushToken([], t).value, t).Err?
  {
    assert [] + [f] + [f] == [f, f];
    assert InsertPushToken([], t).value[0].token == t.token;
  }
}

=== FILE: seed.dfy ===
/** Generation of a series' episode rows by the seeder. The duration draw
    `Math.floor(Math.random() * 90)` enters as a sequence of rolls, one per episode. */
module Seed {
  import opened Schema
  import opened Text

  const SAMPLE_VIDEO := "https://commondatastorage.googleapis.com/gtv-videos-bucket/sample/ForBiggerBlazes.mp4"

  /** Free up to `freeEpisodes`, ad-unlockable for the next five, premium after that. */
  function UnlockTypeFor(i: int, freeEpisodes: int): (kind: UnlockKind)
    ensures kind == Free <==> i <= freeEpisodes
    ensures kind == Ad <==> freeEpisodes < i <= freeEpisodes + 5
    ensures kind == Premium <==> i > freeEpisodes + 5
  {
    if i <= freeEpisodes then Free else if i <= freeEpisodes + 5 then Ad else Premium
  }

  /** Episode number `i` of the series, with duration `90 + roll`. */
  function EpisodeAt(seriesId: Id, i: nat, freeEpisodes: int, roll: int): (ep: EpisodeRow)
    requires 0 <= roll < 90
    ensures ep.seriesId == seriesId && ep.episodeNumber == i
    ensures ep.title == "Episode " + NatToString(i)
    ensures 90 <= ep.duration <= 179
    ensures ep.isLocked <==> i > freeEpisodes
    ensures ep.isLocked <==> ep.unlockType != Free
  {
    EpisodeRow(
      seriesId, i, "Episode " + NatToString(i),
      "https://picsum.photos/seed/" + seriesId + "-" + NatToString(i) + "/400/225",
      SAMPLE_VIDEO, 90 + roll, i > freeEpisodes, UnlockTypeFor(i, freeEpisodes))
  }

  /** Rows for episodes 1..totalEpisodes in order (none when the total is not positive). */
  method GenerateEpisodes(seriesId: Id, totalEpisodes: int, freeEpisodes: int, rolls: seq<int>)
    returns (eps: seq<EpisodeRow>)
    requires |rolls| >= totalEpisodes
    requires forall k :: 0 <= k < |rolls| ==> 0 <= rolls[k] < 90
    ensures |eps| == (if totalEpisodes > 0 then totalEpisodes else 0)
    ensures forall k :: 0 <= k < |eps| ==>
              && eps[k].seriesId == seriesId
              && eps[k].episodeNumber == k + 1
              && eps[k].title == "Episode " + NatToString(k + 1)
              && 90 <= eps[k].duration <= 179
              && (eps[k].isLocked <==> k + 1 > freeEpisodes)
              && (eps[k].unlockType == Free <==> k + 1 <= freeEpisodes)
              && (eps[k].unlockType == Ad <==> freeEpisodes < k + 1 <= freeEpisodes + 5)
              && (eps[k].unlockType == Premium <==> k + 1 > freeEpisodes + 5)
              && (eps[k].isLocked <==> eps[k].unlockType != Free)
  {
    eps := [];
    var i := 1;
    while i <= totalEpisodes
      invariant 1 <= i
      invariant totalEpisodes > 0 ==> i <= totalEpisodes + 1
      invariant totalEpisodes <= 0 ==> i == 1
      invariant i - 1 <= |rolls|
      invariant |eps| == i - 1
      invariant forall k :: 0 <= k < |eps| ==> eps[k] == EpisodeAt(seriesId, k + 1, freeEpisodes, rolls[k])
    {
      eps := eps + [EpisodeAt(seriesId, i, freeEpisodes, rolls[i - 1])];
      i := i + 1;
    }
  }
}

=== FILE: storage.dfy ===
/** The persistent state the coin economy reads and writes, and the storage operations on it.
    Each operation is one atomic step from a state to a new state. */
module Storage {
  import opened Wrappers
  import opened Schema
  import opened Tables

  /** A calendar day, the key of the per-day ad counter. */
  type Day = int

  datatype State = State(
    users: map<Id, User>,
    transactions: seq<CoinTransaction>,
    grants: seq<UnlockedEpisode>,
    subscriptions: seq<Subscription>,
    adViews: map<(Id, Day), nat>,
    favorites: seq<Favorite>,
    watchHistory: seq<WatchRow>)

  function Min(a: int, b: int): int {
    if a <= b then a else b
  }

  /** Grants, subscriptions, ad counters, favourites and watch history are the same in both states. */
  predicate SameEntitlements(s: State, r: State) {
    && r.grants == s.grants
    && r.subscriptions == s.subscriptions
    && r.adViews == s.adViews
    && r.favorites == s.favorites
    && r.watchHistory == s.watchHistory
  }

  /** Both states know the same users, with the same premium flag and expiry. */
  predicate SamePremium(s: State, r: State) {
    && r.users.Keys == s.users.Keys
    && forall v :: v in s.users ==>
         r.users[v].isPremium == s.users[v].isPremium && r.users[v].premiumExpiresAt == s.users[v].premiumExpiresAt
  }

  // ---------------------------------------------------------------- coins

  /** The ledger rows of user `u`, oldest first. */
  function TxsOf(log: seq<CoinTransaction>, u: Id): (r: seq<CoinTransaction>)
    ensures |r| <= |log|
    ensures forall k :: 0 <= k < |r| ==> r[k].userId == u
  {
    if |log| == 0 then []
    else TxsOf(log[..|log| - 1], u) + (if log[|log| - 1].userId == u then [log[|log| - 1]] else [])
  }

  /** A user's ledger holds every one of their rows, each as often as the whole ledger
      does, and no row of anyone else. */
  lemma {:induction false} TxsOfSelectsExactly(log: seq<CoinTransaction>, u: Id)
    ensures forall t: CoinTransaction :: t.userId == u ==> multiset(TxsOf(log, u))[t] == multiset(log)[t]
    ensures forall t: CoinTransaction :: t.userId != u ==> multiset(TxsOf(log, u))[t] == 0
  {
    if |log| > 0 {
      var init, last := log[..|log| - 1], log[|log| - 1];
      TxsOfSelectsExactly(init, u);
      assert log == init + [last];
      assert multiset(log) == multiset(init) + multiset{last};
      var tail: seq<CoinTransaction> := if last.userId == u then [last] else [];
      assert TxsOf(log, u) == TxsOf(init, u) + tail;
      assert multiset(TxsOf(log, u)) == multiset(TxsOf(init, u)) + multiset(tail);
    }
  }

  /** The ledger of an earlier prefix of the log is a prefix of the user's ledger: rows
      keep their order and are never rewritten. */
  lemma {:induction false} TxsOfPrefix(log: seq<CoinTransaction>, i: nat, u: Id)
    requires i <= |log|
    ensures TxsOf(log[..i], u) <= TxsOf(log, u)
    decreases |log| - i
  {
    if i < |log| {
      TxsOfPrefix(log[..|log| - 1], i, u);
      assert log[..|log| - 1][..i] == log[..i];
    } else {
      assert log[..i] == log;
    }
  }

  /** Appending a row extends exactly its owner's ledger. */
  lemma TxsOfAppend(log: seq<CoinTransaction>, t: CoinTransaction, u: Id)
    ensures TxsOf(log + [t], u) == TxsOf(log, u) + (if t.userId == u then [t] else [])
  {
    assert (log + [t])[..|log|] == log;
  }

  /** The cached balance: the stored value, or 0 for a missing user or a NULL balance. */
  function GetCoinBalance(s: State, u: Id): (b: int)
    ensures u in s.users && s.users[u].coinBalance.Some? ==> b == s.users[u].coinBalance.value
    ensures u !in s.users || s.users[u].coinBalance.None? ==> b == 0
  {
    if u in s.users && s.users[u].coinBalance.Some? then s.users[u].coinBalance.value else 0
  }

  /** Appends the given row to the ledger and overwrites the owner's cached balance with its
      `balanceAfter`. Neither `balanceBefore` nor the sign of the result is checked. */
  function AddCoinTransaction(s: State, tx: CoinTransaction): (r: State)
    ensures r.transactions == s.transactions + [tx]
    ensures tx.userId in s.users ==> GetCoinBalance(r, tx.userId) == tx.balanceAfter
    ensures tx.userId !in s.users ==> r.users == s.users
    ensures forall v :: v != tx.userId ==> GetCoinBalance(r, v) == GetCoinBalance(s, v)
    ensures SamePremium(s, r)
    ensures SameEntitlements(s, r)
  {
    var users :=
      if tx.userId in s.users
      then s.users[tx.userId := s.users[tx.userId].(coinBalance := Some(tx.balanceAfter))]
      else s.users;
    s.(transactions := s.transactions + [tx], users := users)
  }

  /** The ledger rows of `u`, newest first: the reversal of its oldest-first ledger. */
  function NewestFirst(log: seq<CoinTransaction>, u: Id): (r: seq<CoinTransaction>)
    ensures r == Reverse(TxsOf(log, u))
  {
    if |log| == 0 then []
    else
      var last := log[|log| - 1];
      var pre := log[..|log| - 1];
      var head := if last.userId == u then [last] else [];
      assert TxsOf(log, u) == TxsOf(pre, u) + head;
      assert Reverse(TxsOf(log, u)) == head + Reverse(TxsOf(pre, u)) by {
        if last.userId == u { ReverseSnoc(TxsOf(pre, u), last); } else { assert TxsOf(pre, u) + head == TxsOf(pre, u); }
      }
      head + NewestFirst(pre, u)
  }

  /** Scanning one more row from the back adds it in front when it belongs to `u`. */
  lemma NewestFirstStep(log: seq<CoinTransaction>, i: nat, u: Id)
    requires 0 < i <= |log|
    ensures NewestFirst(log[..i], u)
            == (if log[i - 1].userId == u then [log[i - 1]] else []) + NewestFirst(log[..i - 1], u)
  {
    assert log[..i][..i - 1] == log[..i - 1];
  }

  /** The at most `limit` most recent ledger rows of `u`, newest first. Rows are ordered by
      their position in the append-only log. */
  method GetCoinHistory(s: State, u: Id, limit: nat) returns (r: seq<CoinTransaction>)
    ensures |r| == Min(limit, |TxsOf(s.transactions, u)|)
    ensures r == Reverse(TxsOf(s.transactions, u))[..|r|]
  {
    var log := s.transactions;
    var i := |log|;
    r := [];
    assert log[..i] == log;
    while i > 0 && |r| < limit
      invariant 0 <= i <= |log|
      invariant |r| <= limit
      invariant r + NewestFirst(log[..i], u) == NewestFirst(log, u)
    {
      NewestFirstStep(log, i, u);
      var head := if log[i - 1].userId == u then [log[i - 1]] else [];
      ConcatAssoc(r, head, NewestFirst(log[..i - 1], u));
      r := r + head;
      i := i - 1;
    }
    assert i == 0 ==> log[..i] == [];
    assert r == NewestFirst(log, u)[..|r|];
  }

  /** Every row of a history belongs to the user asked about, and row `k` is the ledger row
      `k` places from the newest. */
  lemma HistoryRowsAreNewestFirst(s: State, u: Id, r: seq<CoinTransaction>)
    requires |r| <= |TxsOf(s.transactions, u)|
    requires r == Reverse(TxsOf(s.transactions, u))[..|r|]
    ensures forall k :: 0 <= k < |r| ==>
              && r[k].userId == u
              && r[k] == TxsOf(s.transactions, u)[|TxsOf(s.transactions, u)| - 1 - k]
  {
    var mine := TxsOf(s.transactions, u);
    forall k | 0 <= k < |r|
      ensures r[k].userId == u && r[k] == mine[|mine| - 1 - k]
    {
      ReverseIndex(mine, k);
    }
  }

  // ---------------------------------------------------------------- subscriptions

  function OwnedBy(u: Id): Subscription -> bool {
    (sub: Subscription) => sub.userId == u
  }

  function ActiveOf(u: Id): Subscription -> bool {
    (sub: Subscription) => sub.userId == u && sub.status == Active
  }

  /** No user has two subscription rows. */
  predicate OneSubscriptionPerUser(subs: seq<Subscription>) {
    forall i, j :: 0 <= i < j < |subs| ==> subs[i].userId != subs[j].userId
  }

  /** Some subscription row belongs to `u`. */
  predicate HasSubscriptionRow(subs: seq<Subscription>, u: Id) {
    exists i :: 0 <= i < |subs| && subs[i].userId == u
  }

  /** Overwrites the user's first subscription row with `data`, or inserts a row when the
      user has none; either way marks the user premium until `data.expiresAt`. */
  function CreateOrUpdateSubscription(s: State, data: SubscriptionInsert, now: Timestamp): (r: (State, Subscription))
    ensures HasValues(r.1, data) && r.1 in r.0.subscriptions
    ensures HasSubscriptionRow(s.subscriptions, data.userId) ==> |r.0.subscriptions| == |s.subscriptions|
    ensures !HasSubscriptionRow(s.subscriptions, data.userId) ==>
              r.0.subscriptions == s.subscriptions + [r.1] && r.1.purchasedAt == now
    ensures forall i :: 0 <= i < |s.subscriptions| && s.subscriptions[i].userId != data.userId ==>
              r.0.subscriptions[i] == s.subscriptions[i]
    ensures OneSubscriptionPerUser(s.subscriptions) ==> OneSubscriptionPerUser(r.0.subscriptions)
    ensures r.0.users.Keys == s.users.Keys
    ensures data.userId in s.users ==>
              && r.0.users[data.userId].isPremium
              && r.0.users[data.userId].premiumExpiresAt == Some(data.expiresAt)
              && r.0.users[data.userId].coinBalance == s.users[data.userId].coinBalance
    ensures forall v :: v in s.users && v != data.userId ==> r.0.users[v] == s.users[v]
    ensures r.0.transactions == s.transactions && r.0.grants == s.grants && r.0.adViews == s.adViews
    ensures r.0.favorites == s.favorites && r.0.watchHistory == s.watchHistory
  {
    var users :=
      if data.userId in s.users
      then s.users[data.userId := s.users[data.userId].(isPremium := true, premiumExpiresAt := Some(data.expiresAt))]
      else s.users;
    match FirstIndex(s.subscriptions, OwnedBy(data.userId))
    case Some(i) =>
      var updated := UpdateSubscriptionRow(s.subscriptions[i], data);
      assert s.subscriptions[i := updated][i] == updated;
      (s.(subscriptions := s.subscriptions[i := updated], users := users), updated)
    case None =>
      var created := InsertSubscriptionRow(data, now);
      (s.(subscriptions := s.subscriptions + [created], users := users), created)
  }

  /** The first row of `u` whose status is active, if any. */
  function GetActiveSubscription(s: State, u: Id): (r: Option<Subscription>)
    ensures r.Some? ==> r.value in s.subscriptions && r.value.userId == u && r.value.status == Active
    ensures r.None? <==> forall i :: 0 <= i < |s.subscriptions| ==>
              !(s.subscriptions[i].userId == u && s.subscriptions[i].status == Active)
  {
    match FirstIndex(s.subscriptions, ActiveOf(u))
    case Some(i) => Some(s.subscriptions[i])
    case None => None
  }

  /** Marks the user's active row canceled; a no-op when there is none. Expiry, renewal and the
      user's premium columns are left as they were. */
  function CancelSubscription(s: State, u: Id): (r: State)
    ensures GetActiveSubscription(s, u).None? ==> r == s
    ensures |r.subscriptions| == |s.subscriptions|
    ensures forall i :: 0 <= i < |s.subscriptions| ==>
              r.subscriptions[i] == s.subscriptions[i].(status := r.subscriptions[i].status)
    ensures forall i :: 0 <= i < |s.subscriptions| && r.subscriptions[i] != s.subscriptions[i] ==>
              && s.subscriptions[i].userId == u && s.subscriptions[i].status == Active
              && r.subscriptions[i].status == Canceled
    ensures GetActiveSubscription(s, u).Some? ==> exists i :: 0 <= i < |s.subscriptions| && r.subscriptions[i].status == Canceled && s.subscriptions[i] == GetActiveSubscription(s, u).value
    ensures OneSubscriptionPerUser(s.subscriptions) ==> GetActiveSubscription(r, u).None?
    ensures OneSubscriptionPerUser(s.subscriptions) ==> OneSubscriptionPerUser(r.subscriptions)
    ensures r.users == s.users && r.transactions == s.transactions && r.grants == s.grants
    ensures r.adViews == s.adViews && r.favorites == s.favorites && r.watchHistory == s.watchHistory
  {
    match FirstIndex(s.subscriptions, ActiveOf(u))
    case Some(i) =>
      s.(subscriptions := s.subscriptions[i := s.subscriptions[i].(status := Canceled)])
    case None => s
  }

  // ---------------------------------------------------------------- grants

  function GrantFor(u: Id, e: Id): UnlockedEpisode -> bool {
    (g: UnlockedEpisode) => g.userId == u && g.episodeId == e
  }

  /** Stores a new grant row; nothing stops a second row for the same pair. */
  function UnlockEpisode(s: State, u: Id, e: Id, kind: UnlockKind): (r: (State, UnlockedEpisode))
    ensures r.1.userId == u && r.1.episodeId == e && r.1.unlockMethod == kind
    ensures r.0.grants == s.grants + [r.1]
    ensures r.0.users == s.users && r.0.transactions == s.transactions && r.0.subscriptions == s.subscriptions
    ensures r.0.adViews == s.adViews && r.0.favorites == s.favorites && r.0.watchHistory == s.watchHistory
  {
    var g := InsertGrantRow(u, e, Some(kind));
    (s.(grants := s.grants + [g]), g)
  }

  /** Whether some grant row records `u` unlocking `e`. */
  function IsEpisodeUnlocked(s: State, u: Id, e: Id): (b: bool)
    ensures b <==> exists i :: 0 <= i < |s.grants| && s.grants[i].userId == u && s.grants[i].episodeId == e
  {
    FirstIndex(s.grants, GrantFor(u, e)).Some?
  }

  /** A grant, once stored, keeps the episode unlocked in every state whose grants extend it. */
  lemma UnlockedStaysUnlocked(s: State, r: State, u: Id, e: Id)
    requires s.grants <= r.grants
    requires IsEpisodeUnlocked(s, u, e)
    ensures IsEpisodeUnlocked(r, u, e)
  {
    var i :| 0 <= i < |s.grants| && s.grants[i].userId == u && s.grants[i].episodeId == e;
    assert r.grants[i] == s.grants[i];
  }

  /** Storing a grant makes the episode unlocked at once. */
  lemma UnlockEpisodeUnlocks(s: State, u: Id, e: Id, kind: UnlockKind)
    ensures IsEpisodeUnlocked(UnlockEpisode(s, u, e, kind).0, u, e)
  {
    var r := UnlockEpisode(s, u, e, kind).0;
    assert r.grants[|s.grants|].userId == u && r.grants[|s.grants|].episodeId == e;
  }

  // ---------------------------------------------------------------- favourites

  function FavoriteOf(u: Id, seriesId: Id): Favorite -> bool {
    (f: Favorite) => f.userId == u && f.seriesId == seriesId
  }

  /** Deleting a row of a table without repeated rows leaves no copy of it behind. */
  lemma RemovedRowIsGone(rows: seq<Favorite>, i: nat)
    requires i < |rows|
    ensures UniqueFavorites(rows) ==> rows[i] !in RemoveAt(rows, i)
  {
    var rest := RemoveAt(rows, i);
    if UniqueFavorites(rows) {
      forall k | 0 <= k < |rest|
        ensures rest[k] != rows[i]
      {
        if k < i {
          assert rest[k] == rows[k];
        } else {
          assert rest[k] == rows[k + 1];
        }
      }
    }
  }

  /** Whether `u` has marked `seriesId` as a favourite. */
  function IsFavorite(s: State, u: Id, seriesId: Id): (b: bool)
    ensures b <==> Favorite(u, seriesId) in s.favorites
  {
    FirstIndex(s.favorites, FavoriteOf(u, seriesId)).Some?
  }

  /** Deletes the first row for the pair and answers false, or inserts one and answers true. */
  function ToggleFavorite(s: State, u: Id, seriesId: Id): (r: (State, bool))
    ensures r.1 <==> !IsFavorite(s, u, seriesId)
    ensures r.1 ==> r.0.favorites == s.favorites + [Favorite(u, seriesId)]
    ensures !r.1 ==> multiset(r.0.favorites) + multiset{Favorite(u, seriesId)} == multiset(s.favorites)
    ensures UniqueFavorites(s.favorites) ==> UniqueFavorites(r.0.favorites)
    ensures UniqueFavorites(s.favorites) ==> IsFavorite(r.0, u, seriesId) == r.1
    ensures r.0.users == s.users && r.0.transactions == s.transactions && r.0.grants == s.grants
    ensures r.0.subscriptions == s.subscriptions && r.0.adViews == s.adViews && r.0.watchHistory == s.watchHistory
  {
    match FirstIndex(s.favorites, FavoriteOf(u, seriesId))
    case Some(i) =>
      var rows := RemoveAt(s.favorites, i);
      RemovedRowIsGone(s.favorites, i);
      (s.(favorites := rows), false)
    case None =>
      (s.(favorites := s.favorites + [Favorite(u, seriesId)]), true)
  }

  /** The insert branch of the toggle is the table's plain insert, made safe by the lookup
      before it: the row it inserts is never already there, so rows stay unique. */
  lemma ToggleInsertIsGuarded(s: State, u: Id, seriesId: Id)
    requires UniqueFavorites(s.favorites)
    ensures var r := ToggleFavorite(s, u, seriesId);
            r.1 ==> && r.0.favorites == InsertFavorite(s.favorites, Favorite(u, seriesId)).value
                    && Favorite(u, seriesId) !in s.favorites
                    && UniqueFavorites(r.0.favorites)
  {
    if ToggleFavorite(s, u, seriesId).1 {
      InsertFavoriteKeepsUniqueIffNew(s.favorites, Favorite(u, seriesId));
    }
  }

  /** Two toggles in a row give back the same favourites (as a collection), and the same
      answer to `IsFavorite` for every pair; from "not a favourite" they restore the table exactly. */
  lemma ToggleTwiceRestores(s: State, u: Id, seriesId: Id)
    requires UniqueFavorites(s.favorites)
    ensures var twice := ToggleFavorite(ToggleFavorite(s, u, seriesId).0, u, seriesId).0;
            && multiset(twice.favorites) == multiset(s.favorites)
            && (forall v, x :: IsFavorite(twice, v, x) == IsFavorite(s, v, x))
            && (!IsFavorite(s, u, seriesId) ==> twice.favorites == s.favorites)
  {
    var once := ToggleFavorite(s, u, seriesId);
    var twice := ToggleFavorite(once.0, u, seriesId);
    if !once.1 {
      assert twice.0.favorites == once.0.favorites + [Favorite(u, seriesId)];
      assert multiset(twice.0.favorites) == multiset(s.favorites);
    } else {
      var n := |s.favorites|;
      assert once.0.favorites[n] == Favorite(u, seriesId);
      assert once.0.favorites[..n] == s.favorites;
      assert FirstIndex(once.0.favorites, FavoriteOf(u, seriesId)) == Some(n);
      assert twice.0.favorites == s.favorites;
    }
    forall v, x
      ensures IsFavorite(twice.0, v, x) == IsFavorite(s, v, x)
    {
      assert Favorite(v, x) in multiset(twice.0.favorites) <==> Favorite(v, x) in multiset(s.favorites);
    }
  }

  // ---------------------------------------------------------------- watch history

  function WatchOf(u: Id, episodeId: Id): WatchRow -> bool {
    (w: WatchRow) => w.userId == u && w.episodeId == episodeId
  }

  /** At most one watch-history row per (user, episode). */
  predicate UniqueWatchRows(rows: seq<WatchRow>) {
    forall i, j :: 0 <= i < j < |rows| ==>
      !(rows[i].userId == rows[j].userId && rows[i].episodeId == rows[j].episodeId)
  }

  /** Some row records `u` watching `episodeId`. */
  predicate HasWatchRow(rows: seq<WatchRow>, u: Id, episodeId: Id) {
    exists i :: 0 <= i < |rows| && rows[i].userId == u && rows[i].episodeId == episodeId
  }

  /** Updates the first row for (user, episode) — the supplied progress, if any, and the
      current time — or inserts a row with the table's defaults when there is none. */
  function SaveWatchProgress(s: State, data: WatchInsert, now: Timestamp): (r: (State, WatchRow))
    ensures r.1.userId == data.userId && r.1.episodeId == data.episodeId
    ensures r.1 in r.0.watchHistory
    ensures !HasWatchRow(s.watchHistory, data.userId, data.episodeId) ==>
              && r.0.watchHistory == s.watchHistory + [r.1]
              && r.1.seriesId == data.seriesId
              && r.1.progress == data.progress.GetOr(Progress(0.0))
              && r.1.lastWatchedAt == data.lastWatchedAt.GetOr(now)
    ensures HasWatchRow(s.watchHistory, data.userId, data.episodeId) ==>
              && r.1.lastWatchedAt == now
              && exists i :: 0 <= i < |s.watchHistory|
                   && s.watchHistory[i].userId == data.userId && s.watchHistory[i].episodeId == data.episodeId
                   && r.0.watchHistory == s.watchHistory[i := r.1]
                   && r.1.seriesId == s.watchHistory[i].seriesId
                   && r.1.progress == data.progress.GetOr(s.watchHistory[i].progress)
    ensures HasWatchRow(s.watchHistory, data.userId, data.episodeId) ==>
              && |r.0.watchHistory| == |s.watchHistory|
              && forall i :: 0 <= i < |s.watchHistory| && r.0.watchHistory[i] != s.watchHistory[i] ==>
                   && s.watchHistory[i].userId == data.userId && s.watchHistory[i].episodeId == data.episodeId
                   && r.0.watchHistory[i].seriesId == s.watchHistory[i].seriesId
    ensures UniqueWatchRows(s.watchHistory) ==> UniqueWatchRows(r.0.watchHistory)
    ensures r.0.users == s.users && r.0.transactions == s.transactions && r.0.grants == s.grants
    ensures r.0.subscriptions == s.subscriptions && r.0.adViews == s.adViews && r.0.favorites == s.favorites
  {
    match FirstIndex(s.watchHistory, WatchOf(data.userId, data.episodeId))
    case Some(i) =>
      var prior := s.watchHistory[i];
      var updated := prior.(progress := data.progress.GetOr(prior.progress), lastWatchedAt := now);
      assert s.watchHistory[i := updated][i] == updated;
      (s.(watchHistory := s.watchHistory[i := updated]), updated)
    case None =>
      var created := InsertWatchRow(data, now);
      (s.(watchHistory := s.watchHistory + [created]), created)
  }
}

=== FILE: tables.dfy ===
/** Row lookup as the server's queries perform it: `select ... where P limit 1` returns the
    first stored row satisfying `P`, in insertion order. */
module Tables {
  import opened Wrappers

  /** Index of the first row satisfying `p`, or `None` when no row does. */
  function FirstIndex<T>(rows: seq<T>, p: T -> bool): (r: Option<nat>)
    ensures r.Some? ==> r.value < |rows| && p(rows[r.value])
    ensures r.Some? ==> forall j :: 0 <= j < r.value ==> !p(rows[j])
    ensures r.None? <==> forall j :: 0 <= j < |rows| ==> !p(rows[j])
  {
    FirstIndexFrom(rows, p, 0)
  }

  /** Search that skips the first `k` rows, known not to satisfy `p`. */
  function FirstIndexFrom<T>(rows: seq<T>, p: T -> bool, k: nat): (r: Option<nat>)
    requires k <= |rows|
    requires forall j :: 0 <= j < k ==> !p(rows[j])
    ensures r.Some? ==> k <= r.value < |rows| && p(rows[r.value])
    ensures r.Some? ==> forall j :: 0 <= j < r.value ==> !p(rows[j])
    ensures r.None? <==> forall j :: 0 <= j < |rows| ==> !p(rows[j])
    decreases |rows| - k
  {
    if k == |rows| then None
    else if p(rows[k]) then Some(k)
    else FirstIndexFrom(rows, p, k + 1)
  }

  /** The table without the row at position `i` (a `delete ... where id = rows[i].id`). */
  function RemoveAt<T>(rows: seq<T>, i: nat): (r: seq<T>)
    requires i < |rows|
    ensures |r| == |rows| - 1
    ensures forall j :: 0 <= j < i ==> r[j] == rows[j]
    ensures forall j :: i <= j < |r| ==> r[j] == rows[j + 1]
    ensures multiset(r) + multiset{rows[i]} == multiset(rows)
  {
    assert rows == rows[..i] + [rows[i]] + rows[i + 1..];
    rows[..i] + rows[i + 1..]
  }

  lemma ConcatAssoc<T>(a: seq<T>, b: seq<T>, c: seq<T>)
    ensures a + (b + c) == (a + b) + c
  {
  }

  /** The rows in the opposite order, built from the back. */
  function Reverse<T>(rows: seq<T>): (r: seq<T>)
    ensures |r| == |rows|
  {
    if |rows| == 0 then [] else [rows[|rows| - 1]] + Reverse(rows[..|rows| - 1])
  }

  /** Reversing a table extended by one row puts that row in front. */
  lemma ReverseSnoc<T>(rows: seq<T>, x: T)
    ensures Reverse(rows + [x]) == [x] + Reverse(rows)
  {
    assert (rows + [x])[..|rows|] == rows;
  }

  /** Position `k` of the reversal holds the row `k` places from the end. */
  lemma {:induction false} ReverseIndex<T>(rows: seq<T>, k: nat)
    requires k < |rows|
    ensures Reverse(rows)[k] == rows[|rows| - 1 - k]
  {
    if k > 0 {
      ReverseIndex(rows[..|rows| - 1], k - 1);
    }
  }
}

=== FILE: text.dfy ===
/** The few string operations the server relies on: prefix tests, substring search and
    decimal rendering of numbers inside messages. Strings are sequences of characters. */
module Text {
  import opened Wrappers

  /** JavaScript truthiness of an optional string: present and not the empty string. */
  predicate Present(s: Option<string>) {
    s.Some? && s.value != ""
  }

  /** `s.startsWith(prefix)`, case-sensitive. */
  predicate StartsWith(s: string, prefix: string) {
    |prefix| <= |s| && s[..|prefix|] == prefix
  }

  /** `part` occurs in `s` starting at position `i`. */
  predicate OccursAt(s: string, part: string, i: int) {
    0 <= i && i + |part| <= |s| && s[i..i + |part|] == part
  }

  /** `s.includes(part)`, written as a scan over the suffixes of `s`. */
  predicate Contains(s: string, part: string)
    decreases |s|
  {
    StartsWith(s, part) || (|s| > 0 && Contains(s[1..], part))
  }

  /** The suffix scan finds `part` exactly when it occurs at some position. */
  lemma {:induction false} ContainsIffOccurs(s: string, part: string)
    ensures Contains(s, part) <==> exists i :: OccursAt(s, part, i)
    decreases |s|
  {
    if StartsWith(s, part) {
      assert OccursAt(s, part, 0);
    } else if |s| > 0 {
      ContainsIffOccurs(s[1..], part);
      if Contains(s[1..], part) {
        var i :| OccursAt(s[1..], part, i);
        assert s[1..][i..i + |part|] == s[i + 1..i + 1 + |part|];
        assert OccursAt(s, part, i + 1);
      }
      forall i | OccursAt(s, part, i)
        ensures Contains(s[1..], part)
      {
        if i != 0 {
          assert s[1..][i - 1..i - 1 + |part|] == s[i..i + |part|];
          assert OccursAt(s[1..], part, i - 1);
        }
      }
    }
  }

  /** The character of a decimal digit. */
  function DigitChar(d: nat): (c: char)
    requires d < 10
    ensures '0' <= c <= '9'
  {
    (48 + d) as char
  }

  /** Decimal rendering of a natural number, as JavaScript template literals print it. */
  function NatToString(n: nat): (r: string)
    ensures |r| >= 1
    ensures forall k | 0 <= k < |r| :: '0' <= r[k] <= '9'
  {
    if n < 10 then [DigitChar(n)] else NatToString(n / 10) + [DigitChar(n % 10)]
  }

  /** The number a string of decimal digits denotes, most significant digit first. */
  function DigitsValue(r: string): (v: int)
    decreases |r|
  {
    if |r| == 0 then 0 else 10 * DigitsValue(r[..|r| - 1]) + (r[|r| - 1] as int - 48)
  }

  /** Reading the rendering back gives the number, and a number of two or more digits does
      not start with a zero: the rendering is the decimal notation of `n`. Different
      numbers therefore render differently. */
  lemma {:induction false} NatToStringValue(n: nat)
    ensures DigitsValue(NatToString(n)) == n
    ensures |NatToString(n)| > 1 ==> NatToString(n)[0] != '0'
    decreases n
  {
    if n >= 10 {
      NatToStringValue(n / 10);
      var r := NatToString(n);
      assert r[..|r| - 1] == NatToString(n / 10);
      assert r[0] == NatToString(n / 10)[0];
    }
  }

  /** Different numbers never share a rendering. */
  lemma NatToStringInjective(m: nat, n: nat)
    ensures NatToString(m) == NatToString(n) ==> m == n
  {
    NatToStringValue(m);
    NatToStringValue(n);
  }

  /** Decimal rendering of an integer, with a leading minus sign when negative. */
  function IntToString(i: int): (r: string)
    ensures |r| >= 1
    ensures i < 0 <==> r[0] == '-'
  {
    if i < 0 then "-" + NatToString(-i) else NatToString(i)
  }
}

=== FILE: unlock_routes.dfy ===
/** The two episode-unlock handlers: the older generic one and the explicit coin unlock. */
module UnlockRoutes {
  import opened Wrappers
  import opened Text
  import opened Schema
  import opened Storage
  import opened CoinEconomics
  import opened Api

  /** The body of a successful unlock: the stored grant plus the fields each handler adds. */
  datatype UnlockReply = UnlockReply(
    grant: UnlockedEpisode,
    coinsDeducted: Option<int>,
    newBalance: Option<int>,
    message: Option<string>)

  /** `t` is `s` with one premium grant for (u, e) appended and nothing else changed. */
  predicate PremiumGrantOnly(s: State, u: Id, e: Id, t: State) {
    t == s.(grants := s.grants + [UnlockedEpisode(u, e, Premium)])
  }

  /** `t` is `s` after a paid unlock: one debit of `cost` from the balance `u` had, with the
      given reason, then one coin grant for (u, e); nobody else's balance moves and no
      subscription, counter, favourite or progress row changes. */
  ghost predicate PaidUnlock(s: State, u: Id, e: Id, cost: int, reason: string, t: State) {
    var b := GetCoinBalance(s, u);
    && t.transactions == s.transactions + [CoinTransaction(u, -cost, EpisodeUnlock, Some(reason), b, b - cost)]
    && t.grants == s.grants + [UnlockedEpisode(u, e, Coins)]
    && GetCoinBalance(t, u) == b - cost
    && (forall v :: v != u ==> GetCoinBalance(t, v) == GetCoinBalance(s, v))
    && SamePremium(s, t)
    && t.subscriptions == s.subscriptions && t.adViews == s.adViews
    && t.favorites == s.favorites && t.watchHistory == s.watchHistory
  }

  /** The debit and the coin grant of a paid unlock, in that order. */
  function DebitAndGrant(s: State, u: Id, e: Id, cost: int, reason: string): (r: (State, UnlockedEpisode))
    requires u in s.users
    ensures PaidUnlock(s, u, e, cost, reason, r.0)
    ensures r.1 == UnlockedEpisode(u, e, Coins)
  {
    UnlockEpisode(Post(s, u, -cost, EpisodeUnlock, reason), u, e, Coins)
  }

  /** POST /api/unlock/:episodeId. The requested unlock method is read but plays no part:
      premium users get a premium grant, everyone else pays the unlock cost. There is no
      check for an earlier grant of the same episode. */
  function UnlockGeneric(s: State, u: Id, e: Id, requestedMethod: Option<string>): (r: Result<Reply<UnlockReply>, ApiError>)
    ensures r.Ok? <==> u in s.users && (s.users[u].isPremium || GetCoinBalance(s, u) >= COINS_PER_VIDEO)
    ensures u !in s.users ==> r == Err(UserNotFound)
    ensures IsPremiumUser(s, u) ==>
              && r.Ok? && PremiumGrantOnly(s, u, e, r.value.state)
              && r.value.body == UnlockReply(UnlockedEpisode(u, e, Premium), None, None, None)
    ensures u in s.users && !s.users[u].isPremium && GetCoinBalance(s, u) < 2 ==>
              r == Err(InsufficientCoins(2, GetCoinBalance(s, u), None))
    ensures u in s.users && !s.users[u].isPremium && GetCoinBalance(s, u) >= 2 ==>
              && r.Ok? && PaidUnlock(s, u, e, 2, "Episode unlock", r.value.state)
              && r.value.body == UnlockReply(UnlockedEpisode(u, e, Coins), None, Some(GetCoinBalance(s, u) - 2), None)
  {
    // The handler reads the requested method (default "ad") and never uses it again.
    var _ := requestedMethod.GetOr("ad");
    if u !in s.users then Err(UserNotFound)
    else
      var user := s.users[u];
      if user.isPremium then
        var (t, g) := UnlockEpisode(s, u, e, Premium);
        Ok(Reply(t, UnlockReply(g, None, None, None)))
      else
        var balance := GetCoinBalance(s, u);
        var cost := GetUnlockCost(user.isPremium);
        if balance < cost then Err(InsufficientCoins(cost, balance, None))
        else
          var (t, g) := DebitAndGrant(s, u, e, cost, "Episode unlock");
          Ok(Reply(t, UnlockReply(g, None, Some(GetCoinBalance(t, u)), None)))
  }

  /** The requested unlock method never changes the outcome. */
  lemma GenericUnlockIgnoresMethod(s: State, u: Id, e: Id, m1: Option<string>, m2: Option<string>)
    ensures UnlockGeneric(s, u, e, m1) == UnlockGeneric(s, u, e, m2)
  {
  }

  /** The reason recorded for an explicit coin unlock. */
  const EXPLICIT_REASON := "Unlocked episode for " + NatToString(COINS_PER_VIDEO) + " coins"

  /** POST /api/episodes/:episodeId/unlock-with-coins. Premium users get a premium grant;
      otherwise an episode already granted is refused before any debit, and the unlock costs
      two coins. */
  function UnlockWithCoins(s: State, u: Id, e: Id): (r: Result<Reply<UnlockReply>, ApiError>)
    ensures r.Ok? <==> u in s.users && (s.users[u].isPremium || (!IsEpisodeUnlocked(s, u, e) && GetCoinBalance(s, u) >= 2))
    ensures u !in s.users ==> r == Err(UserNotFound)
    ensures IsPremiumUser(s, u) ==>
              && r.Ok? && PremiumGrantOnly(s, u, e, r.value.state)
              && r.value.body == UnlockReply(UnlockedEpisode(u, e, Premium), None, None, Some("Premium user - unlocked free"))
    ensures u in s.users && !s.users[u].isPremium && IsEpisodeUnlocked(s, u, e) ==> r == Err(AlreadyUnlocked)
    ensures u in s.users && !s.users[u].isPremium && !IsEpisodeUnlocked(s, u, e) && GetCoinBalance(s, u) < 2 ==>
              r == Err(InsufficientCoins(2, GetCoinBalance(s, u), Some(2 - GetCoinBalance(s, u))))
    ensures u in s.users && !s.users[u].isPremium && !IsEpisodeUnlocked(s, u, e) && GetCoinBalance(s, u) >= 2 ==>
              && r.Ok? && PaidUnlock(s, u, e, 2, EXPLICIT_REASON, r.value.state)
              && r.value.body.grant == UnlockedEpisode(u, e, Coins)
              && r.value.body.coinsDeducted == Some(2)
              && r.value.body.newBalance == Some(GetCoinBalance(s, u) - 2)
  {
    if u !in s.users then Err(UserNotFound)
    else if s.users[u].isPremium then
      var (t, g) := UnlockEpisode(s, u, e, Premium);
      Ok(Reply(t, UnlockReply(g, None, None, Some("Premium user - unlocked free"))))
    else if IsEpisodeUnlocked(s, u, e) then Err(AlreadyUnlocked)
    else
      var balance := GetCoinBalance(s, u);
      var cost := COINS_PER_VIDEO;
      if balance < cost then Err(InsufficientCoins(cost, balance, Some(cost - balance)))
      else
        var (t, g) := DebitAndGrant(s, u, e, cost, EXPLICIT_REASON);
        Ok(Reply(t, UnlockReply(g, Some(cost), Some(GetCoinBalance(t, u)),
                                Some("Episode unlocked! " + NatToString(cost) + " coins deducted."))))
  }

  /** The explicit endpoint never charges twice for one episode: right after a paid unlock,
      a second request is refused and changes nothing. */
  lemma ExplicitUnlockChargesOnce(s: State, u: Id, e: Id)
    requires UnlockWithCoins(s, u, e).Ok?
    requires !IsPremiumUser(s, u)
    ensures UnlockWithCoins(UnlockWithCoins(s, u, e).value.state, u, e) == Err(AlreadyUnlocked)
  {
    var t := UnlockWithCoins(s, u, e).value.state;
    assert t.grants[|s.grants|] == UnlockedEpisode(u, e, Coins);
  }

  /** The generic endpoint has no such guard: two requests from a non-premium user holding
      at least four coins both succeed, debit four coins in total and store two grants for
      the same episode. */
  lemma GenericUnlockChargesAgain(s: State, u: Id, e: Id, m: Option<string>)
    requires u in s.users && !s.users[u].isPremium && GetCoinBalance(s, u) >= 4
    ensures var first := UnlockGeneric(s, u, e, m);
            && first.Ok?
            && var second := UnlockGeneric(first.value.state, u, e, m);
            && second.Ok?
            && GetCoinBalance(second.value.state, u) == GetCoinBalance(s, u) - 4
            && second.value.state.grants == s.grants + [UnlockedEpisode(u, e, Coins), UnlockedEpisode(u, e, Coins)]
            && |second.value.state.transactions| == |s.transactions| + 2
  {
    var first := UnlockGeneric(s, u, e, m).value.state;
    assert u in first.users && !first.users[u].isPremium;
  }
}

=== FILE: wrappers.dfy ===
/** Optional values and success/failure results, the shapes every module returns. */
module Wrappers {

  /** A value that may be absent: JavaScript `undefined` / SQL NULL. */
  datatype Option<+T> = None | Some(value: T) {

    /** The value, or `default` when absent. */
    function GetOr(default: T): T {
      match this
      case Some(v) => v
      case None => default
    }
  }

  /** The outcome of an operation that either succeeds with a value or fails with an error. */
  datatype Result<+T, +E> = Ok(value: T) | Err(error: E)
}
